=== FILE: README.md ===
# The file-saving and error-handling core of the tpi lab client, in Dafny

The client is a React front end for a set of cryptography labs: a pseudo-random
generator (Lab 1), MD5 hashing (Lab 2), RC5 encryption and a DSA signature page
(lab 5). This project models the code that does not depend on React. That code turns
failed API calls into `ApiError`s (`handleError`, `executeRequest`). It finds a file
name in a `Content-Disposition` header, in two different ways (`triggerSaveAs`,
`triggerFileDownload`). It puts a file on disk through the File System Access picker
or through an anchor download. It derives the names and contents of the files the
pages save. The DSA page also checks its inputs in a fixed order before calling the
server.

Everything is pure. A browser is a parameter that says whether `showSaveFilePicker`
exists and how each of its four awaited steps settles. A save is the trace of browser
calls it makes, plus how it ended. An HTTP exchange is a `Response` or the raw error
axios throws. A prompt's answer, a locale formatter and an API call's outcome are
parameters too.

Modules, one per source concern:

- `Wrappers`: `Option` and `Result`.
- `Text`: the JavaScript string operations the code uses, each with its defining
  property. These are `lastIndexOf`, `endsWith`, ASCII `toLowerCase`, `join`, `split`
  and `trim`.
- `Numerals`: the decimal rendering of integers and its parser.
- `Uri`: `decodeURIComponent` as ECMA-262 defines it, with UTF-8 validation, and the
  `encodeURIComponent` it undoes.
- `ExecuteRequest`: `handleError` and `executeRequest` (`src/utils/executeRequest.js`).
- `ContentDisposition`: the two header regular expressions, each written as a
  scanner. `HeaderExamples` holds worked headers.
- `PickerOptions`: `getFilePickerOptions`.
- `FileNames`: the split of a name at its last dot.
- `Saving`: `triggerSaveAs`, `triggerFileDownload` and the page-local `saveFile`.
- `CryptoRc5`: the RC5 API wrappers.
- `Lab1Page`, `Lab2Page`, `Lab5Page`: the pages' file and form logic.

Three behaviours of the code worth noting:

- `triggerFileDownload`'s pattern needs `=` directly after `filename`. A
  `filename*=` parameter is therefore never a match, wherever it stands
  (`ContentDisposition.ExtendedKeyNoMatch`); when it is the header's only
  candidate, the default `download.rc5` is used
  (`ContentDisposition.FileDownloadExtendedDefault`).
- `triggerSaveAs`'s pattern stops a name at the first `;`, CR, LF, `'` or
  `"`, even inside quotes, and skips a leading `UTF-` and digit. So
  `filename="John's report.pdf"` saves as "John"
  (`ContentDisposition.SaveAsQuotedCut`).
- An error body that is a Blob is never read for a JSON `message`
  (`ExecuteRequest.BlobBodyNeverDecoded`).

## Model

| member | source | states |
|---|---|---|
| ExecuteRequest.HandleError | src/utils/executeRequest.js:1-26 | the thrown `ApiError` carries the response's status exactly when there is a response, and otherwise none; its message is never empty; with a response, the fixed table message wins over the body's `message`, which wins over "Unhandled response status: N"; a sent request without a response gives the no-response message; anything else gives its own message or "An unknown error occurred." |
| ExecuteRequest.ResponseBeatsRequest | src/utils/executeRequest.js:10-21 | once there is a response, neither a recorded request nor the error's own message changes the result |
| ExecuteRequest.TableBeatsBody | src/utils/executeRequest.js:12-20 | for 400, 401, 403, 404 and 500 the error is the table entry whatever the body says |
| ExecuteRequest.BlobBodyNeverDecoded | src/utils/executeRequest.js:11-20 | a Blob error body yields the same error as no body at all |
| ExecuteRequest.UnhandledStatusRecoverable | src/utils/executeRequest.js:20 | for a status outside the table and no body message, the status can be read back from the message |
| ExecuteRequest.StatusAfterRendered | src/utils/executeRequest.js:20-34 | a status rendered after a prefix parses back to itself |
| ExecuteRequest.Execute | src/utils/executeRequest.js:28-38 | success exactly when the status equals the expected one; a truthy body is returned as is and a falsy one is replaced by the default message; a thrown error goes through `handleError`; a status mismatch gives the status-less error "Unexpected response status: " followed by the status as `String` writes it, so the status survives only in the message and reads back from it |
| ExecuteRequest.ExecuteSuccessIsTruthy | src/utils/executeRequest.js:31-33 | with a non-empty default message, a success is never a falsy value |
| Text.LastIndexOf | src/api/cryptoRC5.js:57 | the result is -1 or an index holding the character, and no later index holds it |
| Text.SplitJoin | src/pages/Lab1.jsx:100 | `split` undoes `join` when no element contains the separator, so a joined list loses nothing |
| Text.JoinAppend | src/pages/Lab1.jsx:100 | joining two non-empty lists is joining each and putting one separator between them |
| Text.JoinEndsWithLast | src/pages/Lab1.jsx:100 | a joined list ends with its last element, so there is no trailing separator |
| Text.TrimIsCore | src/pages/lab5.jsx:92 | `trim` returns a contiguous piece of the text with only whitespace around it, and neither end of the piece is whitespace |
| Text.TrimIdempotent | src/pages/lab5.jsx:92 | trimming twice is trimming once |
| Numerals.IntToString | src/pages/Lab1.jsx:100 | `String(n)` is a non-empty run of digits with an optional leading minus, ending in a digit |
| Numerals.ParseIntToString | src/pages/Lab1.jsx:100 | a rendered integer parses back to itself |
| Numerals.IntToStringInjective | src/utils/executeRequest.js:20 | different integers render differently |
| Uri.BadEscapeFails | src/utils/triggerSaveAs.js:34 | a `%` that does not start a well-formed escape makes `decodeURIComponent` fail, wherever it stands |
| Uri.DecodeWithoutEscapes | src/utils/triggerSaveAs.js:34 | text without `%` decodes to itself |
| Uri.DecodeEncode | src/utils/triggerSaveAs.js:34 | `decodeURIComponent(encodeURIComponent(s))` is `s` for every string |
| Uri.EncodeAppend | src/utils/triggerSaveAs.js:34 | percent-encoding works character by character |
| Uri.NaiveEncoding | src/utils/triggerSaveAs.js:34 | "naïve.txt" is sent as `na%C3%AFve.txt`: a UTF-8 name with one two-byte character takes two escapes |
| Uri.NaiveDecoding | src/utils/triggerSaveAs.js:34 | `na%C3%AFve.txt` decodes to "naïve.txt" |
| ContentDisposition.KeyEnd | src/utils/triggerSaveAs.js:32 | the value starts right after `filename=` exactly when that text begins at the position, right after `filename*=` exactly when that text does, and nowhere when neither does |
| ContentDisposition.SaveAsCapture | src/utils/triggerSaveAs.js:32 | the header fails to match exactly when no `filename=` or `filename*=` key occurs in it; a capture never holds `;`, CR, LF or a quote |
| ContentDisposition.SaveAsFilename | src/utils/triggerSaveAs.js:28-36 | no header, an empty header, no match or an empty capture give "download.bin"; the call fails exactly when the capture does not percent-decode; a capture without `%` is used verbatim |
| ContentDisposition.FilenameOfCapture | src/utils/triggerSaveAs.js:33-35 | a non-empty capture is decoded, and its decoding failure is the whole call's failure |
| ContentDisposition.SaveAsQuoted | src/utils/triggerSaveAs.js:32-34 | for `filename="name"` after any prefix in which no `filename=` or `filename*=` begins, where `name` is non-empty, holds no `;`, CR, LF, `"` or `'`, and does not start with `UTF-` and a digit, the capture is `name`, decoded, whatever follows, so the first key in the header wins |
| ContentDisposition.SaveAsQuotedCut | src/utils/triggerSaveAs.js:32-34 | inside `filename="…`, the capture is cut at the first `;`, CR, LF, `"` or `'`; the part before it is decoded, whatever follows |
| ContentDisposition.SaveAsQuotedPlain | src/utils/triggerSaveAs.js:32-34 | after any prefix in which no key begins, a non-empty quoted name without `%`, without `;`, CR, LF, `"` or `'`, and not starting with `UTF-` and a digit, is taken verbatim |
| ContentDisposition.SaveAsExtended | src/utils/triggerSaveAs.js:32-34 | for `filename*=UTF-d''value` after any prefix in which no key begins, the charset prefix is skipped and the percent-encoded value is decoded |
| ContentDisposition.FileDownloadFilename | src/utils/triggerFileDownload.js:1-10 | the name is never empty; no header, an empty header or no match give "download.rc5"; any other name contains no quote |
| ContentDisposition.FindDownloadMatch | src/utils/triggerFileDownload.js:5 | the search returns the leftmost position where the pattern matches, and reports no match only when it matches nowhere |
| ContentDisposition.FileDownloadValue | src/utils/triggerFileDownload.js:5-8 | after any prefix in which the expression matches nowhere, `filename=` and an optional quote, the name is the text up to the next quote, undecoded, and for an unquoted value that includes any later parameters |
| ContentDisposition.ExtendedKeyNoMatch | src/utils/triggerFileDownload.js:5 | at any position, `filename*=` is not a match |
| ContentDisposition.EmptyValueNoMatch | src/utils/triggerFileDownload.js:5 | at any position, `filename=""` is not a match |
| ContentDisposition.FileDownloadExtendedDefault | src/utils/triggerFileDownload.js:3-8 | a header with `filename*=` and no match before or after it gets the default name |
| ContentDisposition.FileDownloadEmptyDefault | src/utils/triggerFileDownload.js:3-8 | a header with `filename=""` and no match before or after it gets the default name |
| HeaderExamples.SaveAsNaiveExample | src/utils/triggerSaveAs.js:32-34 | `attachment; filename*=UTF-8''na%C3%AFve.txt` saves as "naïve.txt" |
| HeaderExamples.SaveAsReportExample | src/utils/triggerSaveAs.js:32-34 | `attachment; filename="report.txt"` saves as "report.txt" |
| HeaderExamples.SaveAsApostropheExample | src/utils/triggerSaveAs.js:32-34 | `attachment; filename="John's report.pdf"` saves as "John" |
| HeaderExamples.SaveAsMalformedExample | src/utils/triggerSaveAs.js:34 | `filename="50%off.txt"` makes the save fail with a `URIError` |
| HeaderExamples.SaveAsFormDataExample | src/utils/triggerSaveAs.js:32-34 | `form-data; filename="a.txt"`, whose prefix holds an `f` that starts no key, saves as "a.txt" |
| HeaderExamples.FileDownloadFormDataExample | src/utils/triggerFileDownload.js:5-8 | the same header, where the prefix's `f` starts no match, downloads as "a.txt" |
| HeaderExamples.FileDownloadQuotedExample | src/utils/triggerFileDownload.js:5-8 | `filename="x.rc5"` gives "x.rc5" |
| HeaderExamples.FileDownloadUnquotedExample | src/utils/triggerFileDownload.js:5-8 | `filename=x.rc5; size=3` keeps the trailing parameter in the name |
| HeaderExamples.FileDownloadEmptyExample | src/utils/triggerFileDownload.js:3-8 | `filename=""` falls back to "download.rc5" |
| HeaderExamples.FileDownloadExtendedExample | src/utils/triggerFileDownload.js:3-8 | `filename*=UTF-8''a` falls back to "download.rc5" |
| HeaderExamples.FileDownloadModificationDateExample | src/utils/triggerFileDownload.js:3-8 | `attachment; modification-date="x"; filename*=UTF-8''a`, whose earlier parameter holds an `f`, falls back to "download.rc5" |
| PickerOptions.Uint32 | src/utils/triggerSaveAs.js:2 | `>>> 0` is below 2^32, the identity on [0, 2^32), and adds 2^32 to a negative value down to -2^32 |
| PickerOptions.ExtensionAfterLastDot | src/utils/triggerSaveAs.js:2 | the extension is the lower-cased text after the last dot when that dot is not the first character; a name without a dot, or whose only dot leads, has no extension |
| PickerOptions.ExtensionOfAppended | src/utils/triggerSaveAs.js:2 | `stem.ext` with a non-empty stem has extension `ext`, lower-cased |
| PickerOptions.ExtensionHasNoDot | src/utils/triggerSaveAs.js:2 | the extension never contains a dot |
| PickerOptions.TypeMapAcceptsKey | src/utils/triggerSaveAs.js:4-16 | every entry of the table accepts the extension it is filed under |
| PickerOptions.FilePickerOptions | src/utils/triggerSaveAs.js:1-25 | the suggested name is the file name; `types` is present exactly when the extension is a key of the table, and then is exactly that key's entry, which accepts the extension |
| PickerOptions.JsFilePickerOptions | src/utils/triggerSaveAs.js:18-24 | as written, `types` is present exactly when the lookup, inherited members included, finds something: the own entry for a key of the table, `Object` for `constructor`, `Object.prototype` for `__proto__` |
| PickerOptions.AppendedType | src/utils/triggerSaveAs.js:1-25 | `stem.ext` is offered the entry of the lower-cased `ext`, whatever its case |
| PickerOptions.JpegShared | src/utils/triggerSaveAs.js:7-8 | `jpg` and `jpeg` are offered equal JPEG entries, each accepting both extensions |
| PickerOptions.Rc5Example | src/utils/triggerSaveAs.js:1-25 | `x.rc5` is offered the RC5 encrypted-file entry, by both lookups |
| PickerOptions.JsOptionsAgree | src/utils/triggerSaveAs.js:20-22 | the lookup as written agrees with the own-key lookup on every extension other than `constructor` and `__proto__` |
| PickerOptions.InheritedConstructor | src/utils/triggerSaveAs.js:20-22 | any name whose extension lower-cases to `constructor` gets the `Object` constructor as its only type |
| PickerOptions.InheritedTypeCounterexample | src/utils/triggerSaveAs.js:20-22 | `x.constructor` is such a name |
| FileNames.Stem | src/pages/Lab2.jsx:124-127 | the stem is a prefix of the name |
| FileNames.StemAndExtension | src/api/cryptoRC5.js:57-61 | the two parts put back together give the name; the extension part is empty exactly when there is no dot, and otherwise is a dot followed by dot-free text |
| FileNames.SplitAppended | src/api/cryptoRC5.js:57-61 | `stem.ext` splits back into `stem` and `.ext` when `ext` has no dot, whatever dots `stem` holds |
| FileNames.StemWithoutDot | src/pages/Lab2.jsx:124-127 | a name without a dot is its own stem |
| Saving.PickerSteps | src/utils/triggerSaveAs.js:44-47 | the picker is always shown first; all steps succeed exactly when each resolves; `close` is called only after `write` resolved, and `write` only after `createWritable` resolved; the error reported is the one of the first step that rejects |
| Saving.TriggerSaveAs | src/utils/triggerSaveAs.js:27-65 | it fails exactly when the name does not decode; without a picker it is an anchor download under the decoded name; with one it first shows the options for that name; it never ends in a logged failure |
| Saving.SaveAsOutcomes | src/utils/triggerSaveAs.js:40-64 | an anchor is clicked exactly when the outcome is a download; no picker always downloads; the run is cancelled exactly when the picker rejected with an AbortError |
| Saving.SaveAsAnchorName | src/utils/triggerSaveAs.js:57-61 | every anchor it clicks downloads under the decoded header name |
| Saving.NoCloseAfterFailedWrite | src/utils/triggerSaveAs.js:46-47 | after a rejected `write` the writable is never closed |
| Saving.SaveAsRevokesAfterClick | src/utils/triggerSaveAs.js:57-64 | every object URL revoked is revoked after an anchor click |
| Saving.TriggerFileDownload | src/utils/triggerFileDownload.js:1-19 | always a download and never the picker: an object URL for the data, one anchor click, under the non-empty name its own pattern finds, then the revocation |
| Saving.FileDownloadRevokesAfterClick | src/utils/triggerFileDownload.js:11-18 | the URL is revoked after the click |
| Saving.PageSaveFile | src/pages/Lab2.jsx:10-44 | without a picker, an anchor download of the text under the given name; with one, the picker offers text/plain `.txt` whatever the name; all steps resolving writes the file, an AbortError ends it silently, and any other error is logged and ends it failed with no anchor download |
| Saving.PageSaveNeverFallsBack | src/pages/lab5.jsx:32-64 | a run uses the picker or an anchor, never both; it downloads exactly when there is no picker |
| Saving.NonAbortErrorContrast | src/pages/Lab2.jsx:39-43 | the same non-abort picker error makes `triggerSaveAs` download and the page `saveFile` fail with only a log entry |
| CryptoRc5.OriginalFilename | src/api/cryptoRC5.js:55-68 | the name is sent unchanged or exactly ten characters shorter |
| CryptoRc5.StripsEncryptedSuffix | src/api/cryptoRC5.js:55-68 | `stem_encrypted.ext` becomes `stem.ext` whatever dots `stem` holds, when `ext` has none |
| CryptoRc5.StripsOnce | src/api/cryptoRC5.js:63-64 | only one suffix is removed |
| CryptoRc5.UnchangedOtherwise | src/api/cryptoRC5.js:59-66 | a name without a dot, or whose stem does not end with `_encrypted`, is sent unchanged |
| CryptoRc5.ChangedMeansStripped | src/api/cryptoRC5.js:59-66 | a name that changed was `stem_encrypted.ext` and became `stem.ext` |
| CryptoRc5.BlobOperation | src/api/cryptoRC5.js:37-47 | a failed POST gives `handleError`'s error; otherwise it succeeds exactly when the save succeeds, with that save; a name that does not decode becomes an `ApiError` without status and with message "URI malformed" |
| CryptoRc5.CancelledSaveSucceeds | src/api/cryptoRC5.js:42-44 | a cancelled picker still resolves to success |
| CryptoRc5.MalformedNameIsApiError | src/api/cryptoRC5.js:45-47 | a name that does not decode surfaces as an `ApiError` without status |
| CryptoRc5.TextOperation | src/api/cryptoRC5.js:9-16 | success exactly when the status is 200; a truthy body is returned unchanged and a falsy one becomes "Success"; a thrown error goes through `handleError`; an error always has a message |
| CryptoRc5.TextStatusMismatch | src/utils/executeRequest.js:31-34 | a text operation answered with another status than 200 fails without a status, and the status reads back from its message |
| CryptoRc5.TextReplyReturned | src/api/cryptoRC5.js:9-16 | a text reply with status 200 is handed back unchanged, an empty one as "Success" |
| Lab1Page.Setting | src/pages/Lab1.jsx:8-10 | a set, non-empty variable is used verbatim; otherwise the value is the decimal numeral of the default without a leading zero, as `String` writes it |
| Lab1Page.DefaultSettings | src/pages/Lab1.jsx:8-13 | without the variables the header values are the texts "3125", "3" and "8191" |
| Lab1Page.HeaderThen | src/pages/Lab1.jsx:12-14 | whatever follows the header, the file's lines start with `MULTIPLIER=m`, `INCREASE=i`, `COMPARISON_MODULE=c` and an empty line |
| Lab1Page.HeaderSplits | src/pages/Lab1.jsx:12-14 | the header ends with two newlines: alone it splits into those four lines and one more empty line |
| Lab1Page.TxtName | src/pages/Lab1.jsx:106 | the result ends with ".txt"; it is the typed name exactly when that already ends with ".txt" (case-sensitive), and otherwise the name with ".txt" appended; the file-mode save at line 56 uses the same expression |
| Lab1Page.TxtNameIdempotent | src/pages/Lab1.jsx:106 | completing a completed name changes nothing |
| Lab1Page.TxtNameKeepsTyped | src/pages/Lab1.jsx:56 | the typed name is kept as a prefix, followed by nothing or ".txt" |
| Lab1Page.Download | src/pages/Lab1.jsx:51-60 | a cancelled or empty prompt saves nothing; otherwise the content is downloaded under the completed name |
| Lab1Page.FileModeSave | src/pages/Lab1.jsx:47-61 | the saved file is the header followed by the server's response, and nothing is saved without a name |
| Lab1Page.OnSubmit | src/pages/Lab1.jsx:30-67 | numbers are shown exactly when a list-mode call returns, and they are its `sequence`; a save happens exactly when a file-mode call returns and the prompt gives a non-empty name, and it downloads the header followed by the returned text under the `.txt`-completed name; a thrown error shows its own message, or the fallback when it has none |
| Lab1Page.ModesExclusive | src/pages/Lab1.jsx:46-62 | one submission never both shows numbers and saves a file |
| Lab1Page.FileModeContent | src/pages/Lab1.jsx:51-52 | the saved file reads back line by line as the three header lines and a blank line, then the lines of the returned text |
| Lab1Page.ListSave | src/pages/Lab1.jsx:92-109 | nothing is saved without a result or without a name, and an empty list is still a result; otherwise the header and the joined numbers are saved |
| Lab1Page.ListContentLines | src/pages/Lab1.jsx:99-100 | the saved list splits into the header lines and then one line per number, or a single empty line for an empty list |
| Lab1Page.ListNumbersRecoverable | src/pages/Lab1.jsx:99-100 | every number can be read back from its line |
| Lab1Page.ListContentEndsWithDigit | src/pages/Lab1.jsx:100 | a non-empty list's file ends with a digit, so there is no trailing newline |
| Lab1Page.VisibleData | src/pages/Lab1.jsx:120 | no result stays no result; with `showAll` the whole result; otherwise a prefix of length min(100, n) |
| Lab1Page.PreviewIsPrefix | src/pages/Lab1.jsx:120 | the preview is a prefix of the full view, and equal to it exactly when there are at most 100 numbers |
| Lab2Page.OnSubmit | src/pages/Lab2.jsx:62-91 | a call is made exactly when text mode has non-empty text or file mode has a chosen file, and it hashes that text or file; otherwise no result and the mode's own message; a returned hash is stored with no message; a thrown error stores nothing and shows its own message, or the fallback when it has none |
| Lab2Page.ModeChecksOwnInput | src/pages/Lab2.jsx:69-83 | text mode ignores the chosen file and file mode ignores the text |
| Lab2Page.FallbackOnlyWithoutMessage | src/pages/Lab2.jsx:86-87 | a thrown error shows "Помилка при виконанні запиту" exactly when its own message is empty or is that very text |
| Lab2Page.Md5Name | src/pages/Lab2.jsx:121-129 | "md5_result.txt" in text mode or without a file; otherwise the stem before the last dot plus "_md5.txt" |
| Lab2Page.Md5NameReplacesExtension | src/pages/Lab2.jsx:122-129 | `stem.ext` gives `stem_md5.txt`; only the last extension goes |
| Lab2Page.Md5NameWithoutDot | src/pages/Lab2.jsx:124-128 | a name without a dot keeps all of itself |
| Lab2Page.HiddenFileName | src/pages/Lab2.jsx:124-128 | ".hidden" gives "_md5.txt" |
| Lab2Page.Md5NameIsTxt | src/pages/Lab2.jsx:121-129 | every suggested name ends with ".txt" |
| Lab2Page.ReportLines | src/pages/Lab2.jsx:132 | the report splits into the hash line, the size line and a final empty line, and the hash can be read back from the first line |
| Lab2Page.HandleDownload | src/pages/Lab2.jsx:117-135 | nothing happens without a result; without a picker the report is downloaded under the suggested name; with one, the picker is offered that name with the text type |
| Lab5Page.Plan | src/pages/lab5.jsx:105-133 | a call is made exactly when key generation is chosen, or a key is chosen and, for signing, text mode or a data file, and, for verifying, non-empty text in text mode or a data file in file mode; a missing key is the first error reported on the sign and verify tabs; every call sends the chosen key |
| Lab5Page.Caught | src/pages/lab5.jsx:140-145 | a caught error sets the error flag and shows a non-empty message, its own when it has one |
| Lab5Page.OnSubmit | src/pages/lab5.jsx:97-146 | loading always ends cleared; a call is made exactly when the checks pass; a failed check shows its message as an error; a thrown call shows a non-empty error; a signature is written only for a sign reply, and it is the reply's signature |
| Lab5Page.SignKeyCheckedFirst | src/pages/lab5.jsx:109-114 | without a private key, signing reports that key and makes no call, whatever the data file |
| Lab5Page.SignDataCheck | src/pages/lab5.jsx:111-116 | with a key, signing a file still needs a data file, and signing text needs no text |
| Lab5Page.VerifyCheckOrder | src/pages/lab5.jsx:123-132 | verifying checks the public key first, then the text in text mode or the data file in file mode |
| Lab5Page.VerifyReplyMapping | src/pages/lab5.jsx:135-138 | a verification reply's message is shown as it came, and it is an error exactly when the status is not "success" |
| Lab5Page.SignReplyMapping | src/pages/lab5.jsx:118-121 | a sign reply writes its signature into the form and shows "Підпис створено." without an error |
| Lab5Page.ApiErrorShown | src/pages/lab5.jsx:140-142 | an `ApiError` from `handleError` is shown with its own message, never the fallback |
| Lab5Page.FallbackOnlyForEmptyMessage | src/pages/lab5.jsx:142 | only an error without a message shows "Помилка виконання" |
| Lab5Page.SignatureName | src/pages/lab5.jsx:66-78 | "signature.txt" unless signing a file with both files chosen; then the data file's stem plus "_md5.txt" |
| Lab5Page.SignatureNameOfFile | src/pages/lab5.jsx:69-77 | signing `stem.ext` suggests `stem_md5.txt` |
| Lab5Page.HandleDownload | src/pages/lab5.jsx:66-81 | without a picker the signature text is downloaded under the suggested name; with one, there is never a download |
| Lab5Page.LoadedSignature | src/pages/lab5.jsx:84-95 | the field receives the piece of the file left once whitespace, and only whitespace, is removed at either end; it neither starts nor ends with whitespace, and trimming again leaves it unchanged |

## Left out

- HTTP transport, axios instances, request payloads and URL paths. A call is given as the `Response` it produced or the raw error it threw.
- The other API wrappers (`rsa.js`, `cryptoDSA.js`, `HashFunction.js`, `Pseudo-RandomNumberGeneration.js`). They follow the shape of `cryptoRC5.js` and have no logic of their own. On the DSA page a call is a parameter of `Lab5Page.OnSubmit`.
- The `name` field of `ApiError`. It is the constant "ApiError" and is not a datatype field.
- Blob construction, object URLs as values, and the DOM `appendChild`/`remove` around the anchor click. A save is its sequence of browser calls.
- The MIME type given to the Blob. Lab 1's file-mode Blob has none and its list-mode Blob is `text/plain`; both are modelled as the same text body.
- `console.error` payloads. A logged error is the single event `LogError`.
- React state, rendering, hooks and routing. `Lab3.jsx` and `lab4.jsx` are not part of this model: they hold UI state and field-presence checks.
- Lab1Page.OnSubmit, Lab2Page.OnSubmit: the request payload (`Number(data.count)`), the state resets at the start and the `console.log` of the result are not modelled; what the handlers leave behind is.
- Locale and float formatting. Lab 2's size text comes from a formatter parameter (`toLocaleString("uk-UA")`); `toFixed` is not used in the modelled code.
- Numbers are integers rendered in decimal. JavaScript's exponent form for magnitudes of 10^21 and above is not modelled.
- Strings are sequences of Unicode code points, not UTF-16 code units. Lengths and indices therefore differ from JavaScript on characters outside the Basic Multilingual Plane.
- Non-ASCII `toLowerCase`. Only A-Z are lower-cased. This changes no lookup in the type table: the only non-ASCII character whose lower case is a single ASCII letter is the Kelvin sign, which becomes `k`, and no key contains `k`.
- PickerOptions.ExtensionAfterLastDot, PickerOptions.ExtensionOfAppended, PickerOptions.ExtensionHasNoDot: these require names shorter than 2^32 characters. For longer names `>>> 0` wraps, and a real string cannot be that long.
- Lab5Page.OnSubmit: a reply that is a JSON object is modelled. A non-object `response.data`, such as a string, whose missing fields read as `undefined` is not.
- A form field that is unset (`undefined`) is modelled as the empty string. Both are falsy for the checks on the DSA page.
- Saving.TriggerSaveAs: it offers the picker the options of the own-key lookup `PickerOptions.FilePickerOptions`, the corrected member of the finding below. For a name ending in `.constructor` or `.__proto__` the code as written offers the inherited member instead (`PickerOptions.JsFilePickerOptions`); everywhere else the two agree (`PickerOptions.JsOptionsAgree`).

## Findings

| source | as written | input that shows it | evidently intended | confidence | as-written member | corrected member |
|---|---|---|---|---|---|---|
| src/utils/triggerSaveAs.js:20-22 | `typeMap[extension]` on an object literal also finds members inherited from `Object.prototype` | a file named `x.constructor` gets `types: [Object]`, which is not a file type | offer a type only for the table's own keys | not executed | PickerOptions.InheritedTypeCounterexample | PickerOptions.FilePickerOptions |

The rest of the model, `Saving.TriggerSaveAs` included, uses the corrected lookup.

=== FILE: content_disposition.dfy ===
/** The two hand-written Content-Disposition filename extractors.

    `triggerSaveAs` matches `/filename\*?=['"]?(?:UTF-\d['"]*)?([^;\r\n"']*)['"]?;?/`, a loose
    take on the `filename` parameter of section 4.1 of RFC 6266 and the `filename*`
    ext-value of section 3.2 of RFC 5987, and percent-decodes the capture.
    `triggerFileDownload` matches `/filename="?([^"]+)"?/` and uses the capture as is.

    Each regular expression is written as an explicit scanner. In the first, everything
    after the capture is optional, so the greedy choices are never undone and a match
    exists at every position where the key matches. In the second, a match at a key
    position can fail (an empty capture), and the search then moves on. */
module ContentDisposition {
  import opened Wrappers
  import Numerals
  import Uri

  const SaveAsDefault := "download.bin"
  const FileDownloadDefault := "download.rc5"

  // ---------------------------------------------------------------------------
  // triggerSaveAs: /filename\*?=['"]?(?:UTF-\d['"]*)?([^;\r\n"']*)['"]?;?/
  // ---------------------------------------------------------------------------

  /** Where the value starts when `filename=` or `filename*=` begins at `p`; nothing
      when neither does. */
  function KeyEnd(h: string, p: nat): (r: Option<nat>)
    ensures r.Some? ==> p + 9 <= r.value <= |h| && h[p..p + 8] == "filename"
    ensures r == Some(p + 9) <==> p + 9 <= |h| && h[p..p + 9] == "filename="
    ensures r == Some(p + 10) <==> p + 10 <= |h| && h[p..p + 10] == "filename*="
    ensures r.None? ==> !(p + 9 <= |h| && h[p..p + 9] == "filename=") && !(p + 10 <= |h| && h[p..p + 10] == "filename*=")
  {
    KeyShapes(h, p);
    if p + 8 <= |h| && h[p..p + 8] == "filename" then
      if p + 9 <= |h| && h[p + 8] == '=' then Some(p + 9)
      else if p + 10 <= |h| && h[p + 8] == '*' && h[p + 9] == '=' then Some(p + 10)
      else None
    else None
  }

  lemma KeyShapes(h: string, p: nat)
    ensures p + 9 <= |h| ==>
              (h[p..p + 9] == "filename=" <==> h[p..p + 8] == "filename" && h[p + 8] == '=')
    ensures p + 10 <= |h| ==>
              (h[p..p + 10] == "filename*=" <==> h[p..p + 8] == "filename" && h[p + 8] == '*' && h[p + 9] == '=')
  {
    if p + 9 <= |h| {
      assert h[p..p + 9] == h[p..p + 8] + [h[p + 8]];
      assert "filename=" == "filename" + ['='];
      SameLengthPrefix(h[p..p + 8], [h[p + 8]], "filename", ['=']);
    }
    if p + 10 <= |h| {
      assert h[p..p + 10] == h[p..p + 8] + [h[p + 8], h[p + 9]];
      assert "filename*=" == "filename" + ['*', '='];
      SameLengthPrefix(h[p..p + 8], [h[p + 8], h[p + 9]], "filename", ['*', '=']);
    }
  }

  lemma SameLengthPrefix(a: string, b: string, c: string, d: string)
    requires |a| == |c|
    ensures a + b == c + d <==> a == c && b == d
  {
    if a + b == c + d {
      assert a == (a + b)[..|a|] && c == (c + d)[..|a|];
      assert b == (a + b)[|a|..] && d == (c + d)[|a|..];
    }
  }

  /** The leftmost key position at or after `from`. */
  function FindKey(h: string, from: nat): (r: Option<nat>)
    requires from <= |h|
    ensures r.Some? ==> from <= r.value < |h| && KeyEnd(h, r.value).Some?
    ensures r.Some? ==> forall q :: from <= q < r.value ==> KeyEnd(h, q).None?
    ensures r.None? ==> forall q :: from <= q <= |h| ==> KeyEnd(h, q).None?
    decreases |h| - from
  {
    if from == |h| then None
    else if KeyEnd(h, from).Some? then Some(from)
    else FindKey(h, from + 1)
  }

  predicate IsQuote(c: char) {
    c == '\'' || c == '"'
  }

  /** `['"]*`: the first position at or after `i` that is not a quote. */
  function SkipQuotes(h: string, i: nat): (r: nat)
    requires i <= |h|
    ensures i <= r <= |h|
    ensures forall k :: i <= k < r ==> IsQuote(h[k])
    ensures r == |h| || !IsQuote(h[r])
    decreases |h| - i
  {
    if i < |h| && IsQuote(h[i]) then SkipQuotes(h, i + 1) else i
  }

  /** `['"]?` then `(?:UTF-\d['"]*)?`, each taken when present. */
  function ValueStart(h: string, i: nat): (r: nat)
    requires i <= |h|
    ensures i <= r <= |h|
  {
    var j := if i < |h| && IsQuote(h[i]) then i + 1 else i;
    if j + 5 <= |h| && h[j..j + 4] == "UTF-" && Numerals.IsDigit(h[j + 4]) then SkipQuotes(h, j + 5)
    else j
  }

  /** The characters the capture `[^;\r\n"']*` cannot contain. */
  predicate IsStop(c: char) {
    c == ';' || c == '\r' || c == '\n' || c == '"' || c == '\''
  }

  /** The end of the longest stop-free run starting at `i`. */
  function StopEnd(h: string, i: nat): (r: nat)
    requires i <= |h|
    ensures i <= r <= |h|
    ensures forall k :: i <= k < r ==> !IsStop(h[k])
    ensures r == |h| || IsStop(h[r])
    decreases |h| - i
  {
    if i < |h| && !IsStop(h[i]) then StopEnd(h, i + 1) else i
  }

  /** Group 1 of the leftmost match, or `None` when the header does not match. */
  function SaveAsCapture(h: string): (r: Option<string>)
    ensures r.None? <==> forall q :: 0 <= q <= |h| ==> KeyEnd(h, q).None?
    ensures r.Some? ==> forall k :: 0 <= k < |r.value| ==> !IsStop(r.value[k])
  {
    match FindKey(h, 0)
    case None => None
    case Some(p) =>
      var i := ValueStart(h, KeyEnd(h, p).value);
      Some(h[i..StopEnd(h, i)])
  }

  /** The filename `triggerSaveAs` settles on; `Failure` is the `URIError` thrown by
      `decodeURIComponent`, before any save is attempted. */
  function SaveAsFilename(header: Option<string>): (r: Result<string, Uri.UriError>)
    ensures header.None? || header == Some("") ==> r == Success(SaveAsDefault)
    ensures header.Some? && SaveAsCapture(header.value) in {None, Some("")} ==> r == Success(SaveAsDefault)
    ensures r.Failure? <==>
              header.Some? && SaveAsCapture(header.value).Some? &&
              Uri.DecodeUriComponent(SaveAsCapture(header.value).value).None?
    ensures (header.Some? && SaveAsCapture(header.value).Some? && SaveAsCapture(header.value).value != ""
              && '%' !in SaveAsCapture(header.value).value) ==> r == Success(SaveAsCapture(header.value).value)
  {
    if header.None? || header.value == "" then Success(SaveAsDefault)
    else
      match SaveAsCapture(header.value)
      case None => Success(SaveAsDefault)
      case Some(c) =>
        if c == "" then Success(SaveAsDefault)
        else
          Uri.DecodeWithoutEscapes(c);
          match Uri.DecodeUriComponent(c)
          case None => Failure(Uri.UriError)
          case Some(name) => Success(name)
  }

  // ---------------------------------------------------------------------------
  // triggerFileDownload: /filename="?([^"]+)"?/
  // ---------------------------------------------------------------------------

  /** The end of the longest run without `"` starting at `i`. */
  function QuoteEnd(h: string, i: nat): (r: nat)
    requires i <= |h|
    ensures i <= r <= |h|
    ensures forall k :: i <= k < r ==> h[k] != '"'
    ensures r == |h| || h[r] == '"'
    decreases |h| - i
  {
    if i < |h| && h[i] != '"' then QuoteEnd(h, i + 1) else i
  }

  /** The capture bounds when the expression matches at `p`: after `filename=`, an
      optional `"` and then at least one character other than `"`. */
  function DownloadMatchAt(h: string, p: nat): (r: Option<(nat, nat)>)
    ensures r.Some? ==> p + 9 <= r.value.0 < r.value.1 <= |h| && h[p..p + 9] == "filename="
    ensures r.Some? ==> forall k :: r.value.0 <= k < r.value.1 ==> h[k] != '"'
    ensures r.Some? ==> r.value.1 == |h| || h[r.value.1] == '"'
  {
    if p + 9 <= |h| && h[p..p + 9] == "filename=" then
      var q := p + 9;
      var i := if q < |h| && h[q] == '"' then q + 1 else q;
      var j := QuoteEnd(h, i);
      if i < j then Some((i, j)) else None
    else None
  }

  /** The leftmost position at or after `from` where the expression matches. */
  function FindDownloadMatch(h: string, from: nat): (r: Option<nat>)
    requires from <= |h|
    ensures r.Some? ==> from <= r.value < |h| && DownloadMatchAt(h, r.value).Some?
    ensures r.Some? ==> forall q :: from <= q < r.value ==> DownloadMatchAt(h, q).None?
    ensures r.None? ==> forall q :: from <= q <= |h| ==> DownloadMatchAt(h, q).None?
    decreases |h| - from
  {
    if from == |h| then None
    else if DownloadMatchAt(h, from).Some? then Some(from)
    else FindDownloadMatch(h, from + 1)
  }

  /** The filename `triggerFileDownload` uses: the capture verbatim, no decoding. */
  function FileDownloadFilename(header: Option<string>): (r: string)
    ensures r != ""
    ensures header.None? || header == Some("") ==> r == FileDownloadDefault
    ensures (header.Some? && forall p :: 0 <= p <= |header.value| ==> DownloadMatchAt(header.value, p).None?)
              ==> r == FileDownloadDefault
    ensures r != FileDownloadDefault ==> '"' !in r
  {
    if header.None? || header.value == "" then FileDownloadDefault
    else
      match FindDownloadMatch(header.value, 0)
      case None => FileDownloadDefault
      case Some(p) =>
        var (i, j) := DownloadMatchAt(header.value, p).value;
        assert forall k :: 0 <= k < j - i ==> header.value[i..j][k] == header.value[i + k];
        header.value[i..j]
  }

  // ---------------------------------------------------------------------------
  // Worked headers
  // ---------------------------------------------------------------------------

  /** No `filename=` or `filename*=` begins before `p`. */
  predicate NoKeyBefore(h: string, p: nat) {
    forall q :: 0 <= q < p ==> KeyEnd(h, q).None?
  }

  /** A key at `p` with none before it is the one the pattern finds. */
  lemma FindKeyAt(h: string, p: nat)
    requires p < |h| && KeyEnd(h, p).Some? && NoKeyBefore(h, p)
    ensures FindKey(h, 0) == Some(p)
  {
  }

  /** A prefix without any `f` holds no key start: both keys begin with their only `f`. */
  lemma NoKeyInFFree(h: string, pre: string)
    requires |pre| <= |h| && h[..|pre|] == pre && 'f' !in pre
    ensures NoKeyBefore(h, |pre|)
  {
    forall q | 0 <= q < |pre| ensures KeyEnd(h, q).None? {
      assert h[q] == pre[q];
      if q + 8 <= |h| {
        assert h[q..q + 8][0] == h[q];
      }
    }
  }

  lemma StopEndAt(h: string, i: nat, j: nat)
    requires i <= j <= |h|
    requires forall k :: i <= k < j ==> !IsStop(h[k])
    requires j == |h| || IsStop(h[j])
    ensures StopEnd(h, i) == j
  {
  }

  /** The capture is `h[i..j]` when the leftmost key sits at `p` and the value scan
      runs from `i` to the stop at `j`. */
  lemma CaptureAt(h: string, p: nat, i: nat, j: nat)
    requires p < |h| && KeyEnd(h, p).Some? && NoKeyBefore(h, p)
    requires ValueStart(h, KeyEnd(h, p).value) == i
    requires i <= j <= |h| && (forall k :: i <= k < j ==> !IsStop(h[k]))
    requires j == |h| || IsStop(h[j])
    ensures SaveAsCapture(h) == Some(h[i..j])
  {
    FindKeyAt(h, p);
    StopEndAt(h, i, j);
  }

  /** A non-empty capture is decoded; its failure is the whole call's failure. */
  lemma FilenameOfCapture(h: string, c: string)
    requires SaveAsCapture(h) == Some(c) && c != ""
    ensures SaveAsFilename(Some(h)) ==
      match Uri.DecodeUriComponent(c)
      case Some(d) => Success(d)
      case None => Failure(Uri.UriError)
  {
  }

  /** Text that the optional charset group `UTF-\d['"]*` would swallow. */
  predicate StartsLikeCharset(s: string) {
    |s| >= 5 && s[..4] == "UTF-" && Numerals.IsDigit(s[4])
  }

  /** After `filename="` the capture runs only to the first stop character, be it the
      closing quote or a `;`, CR, LF, `'` or `"` inside the quoted name: the name is cut
      there, and the part before it is percent-decoded. */
  lemma {:induction false} SaveAsQuotedCut(pre: string, name: string, stop: char, post: string)
    requires NoKeyBefore(pre + "filename=\"" + name + [stop] + post, |pre|)
    requires name != "" && !StartsLikeCharset(name)
    requires forall k :: 0 <= k < |name| ==> !IsStop(name[k])
    requires IsStop(stop)
    ensures SaveAsFilename(Some(pre + "filename=\"" + name + [stop] + post)) ==
      match Uri.DecodeUriComponent(name)
      case Some(d) => Success(d)
      case None => Failure(Uri.UriError)
  {
    var mid := "filename=\"";
    var h := pre + mid + name + ([stop] + post);
    assert h == pre + "filename=\"" + name + [stop] + post;
    var p := |pre|;
    QuotedKey(h, pre, mid, name + ([stop] + post));
    QuotedValueStart(h, pre + mid, name, [stop] + post);
    ValueRun(h, pre + mid, name, [stop] + post);
    CaptureAt(h, p, p + 10, p + 10 + |name|);
    FilenameOfCapture(h, name);
  }

  /** `filename="name"` after a prefix in which no key begins, for a name without stop
      characters that does not start like a charset: the capture is `name`, then
      percent-decoded, whatever follows the closing quote, including a later
      `filename*=` parameter: the first occurrence wins. */
  lemma SaveAsQuoted(pre: string, name: string, post: string)
    requires NoKeyBefore(pre + "filename=\"" + name + "\"" + post, |pre|)
    requires name != "" && !StartsLikeCharset(name)
    requires forall k :: 0 <= k < |name| ==> !IsStop(name[k])
    ensures SaveAsFilename(Some(pre + "filename=\"" + name + "\"" + post)) ==
      match Uri.DecodeUriComponent(name)
      case Some(d) => Success(d)
      case None => Failure(Uri.UriError)
  {
    assert pre + "filename=\"" + name + "\"" + post == pre + "filename=\"" + name + ['"'] + post;
    SaveAsQuotedCut(pre, name, '"', post);
  }

  /** A quoted name without escapes, stop characters or a leading charset is taken verbatim. */
  lemma SaveAsQuotedPlain(pre: string, name: string, post: string)
    requires NoKeyBefore(pre + "filename=\"" + name + "\"" + post, |pre|) && '%' !in name
    requires name != "" && !StartsLikeCharset(name)
    requires forall k :: 0 <= k < |name| ==> !IsStop(name[k])
    ensures SaveAsFilename(Some(pre + "filename=\"" + name + "\"" + post)) == Success(name)
  {
    SaveAsQuoted(pre, name, post);
    Uri.DecodeWithoutEscapes(name);
  }

  lemma QuotedKey(h: string, pre: string, mid: string, rest: string)
    requires h == pre + mid + rest && mid == "filename=\""
    ensures KeyEnd(h, |pre|) == Some(|pre| + 9)
    ensures h[|pre| + 9] == '"'
  {
    var p := |pre|;
    assert h[..p] == pre && h[p..p + 10] == mid;
    assert h[p..p + 8] == mid[..8] == "filename";
    assert h[p + 8] == mid[8] == '=';
    assert h[p + 9] == mid[9];
  }

  lemma QuotedValueStart(h: string, before: string, name: string, post: string)
    requires h == before + name + post && |before| >= 1 && IsQuote(before[|before| - 1])
    requires post != [] && IsStop(post[0])
    requires !StartsLikeCharset(name)
    ensures ValueStart(h, |before| - 1) == |before|
  {
    var j := |before|;
    assert h[j - 1] == before[j - 1];
    if |name| >= 5 {
      assert h[j..j + 4] == name[..4] && h[j + 4] == name[4];
    } else {
      assert h[j + |name|] == post[0];
      if |name| < 4 && j + 4 <= |h| {
        assert h[j..j + 4][|name|] == post[0];
      }
    }
  }

  /** `filename*=UTF-d''value`, the RFC 5987 ext-value form, after a prefix in which no
      key begins: the capture is the percent-encoded `value`, which is then decoded. */
  lemma {:induction false} SaveAsExtended(pre: string, digit: char, value: string, post: string)
    requires NoKeyBefore(pre + "filename*=UTF-" + [digit] + "''" + value + post, |pre|)
    requires Numerals.IsDigit(digit)
    requires value != "" && forall k :: 0 <= k < |value| ==> !IsStop(value[k])
    requires post == [] || IsStop(post[0])
    ensures SaveAsFilename(Some(pre + "filename*=UTF-" + [digit] + "''" + value + post)) ==
      match Uri.DecodeUriComponent(value)
      case Some(d) => Success(d)
      case None => Failure(Uri.UriError)
  {
    var h := pre + "filename*=UTF-" + [digit] + "''" + value + post;
    var p := |pre|;
    var j := p + 17;
    ExtendedScan(h, pre, digit, value, post);
    CaptureAt(h, p, j, j + |value|);
    FilenameOfCapture(h, value);
  }

  lemma ExtendedScan(h: string, pre: string, digit: char, value: string, post: string)
    requires h == pre + "filename*=UTF-" + [digit] + "''" + value + post
    requires Numerals.IsDigit(digit)
    requires value != "" && forall k :: 0 <= k < |value| ==> !IsStop(value[k])
    requires post == [] || IsStop(post[0])
    ensures |h| >= |pre| + 17 + |value|
    ensures KeyEnd(h, |pre|) == Some(|pre| + 10)
    ensures ValueStart(h, |pre| + 10) == |pre| + 17
    ensures forall i :: |pre| + 17 <= i < |pre| + 17 + |value| ==> !IsStop(h[i])
    ensures |pre| + 17 + |value| == |h| || IsStop(h[|pre| + 17 + |value|])
    ensures h[|pre| + 17..|pre| + 17 + |value|] == value
  {
    var mid := "filename*=UTF-" + [digit] + "''";
    assert h == pre + mid + (value + post);
    ExtendedKey(h, pre, mid, value + post, digit);
    ExtendedValueStart(h, pre, mid, value + post, digit);
    ValueRun(h, pre + mid, value, post);
  }

  lemma ExtendedKey(h: string, pre: string, mid: string, rest: string, digit: char)
    requires h == pre + mid + rest && mid == "filename*=UTF-" + [digit] + "''"
    ensures |mid| == 17
    ensures KeyEnd(h, |pre|) == Some(|pre| + 10)
  {
    var p := |pre|;
    assert h[..p] == pre && h[p..p + 17] == mid;
    assert h[p..p + 8] == mid[..8] == "filename";
    assert h[p + 8] == mid[8] == '*';
    assert h[p + 9] == mid[9] == '=';
  }

  lemma ExtendedValueStart(h: string, pre: string, mid: string, rest: string, digit: char)
    requires h == pre + mid + rest && mid == "filename*=UTF-" + [digit] + "''"
    requires Numerals.IsDigit(digit) && rest != [] && !IsQuote(rest[0])
    ensures ValueStart(h, |pre| + 10) == |pre| + 17
  {
    var k := |pre| + 10;
    assert |mid| == 17 && h[|pre|..|pre| + 17] == mid;
    assert SkipQuotes(h, k + 5) == k + 7 by {
      assert h[k + 5] == mid[15] == '\'';
      assert h[k + 6] == mid[16] == '\'';
      assert h[k + 7] == rest[0];
    }
    assert h[k] == mid[10] == 'U';
    assert h[k..k + 4] == mid[10..14] == "UTF-";
    assert h[k + 4] == mid[14] == digit;
  }

  lemma ValueRun(h: string, before: string, value: string, post: string)
    requires h == before + value + post
    requires forall k :: 0 <= k < |value| ==> !IsStop(value[k])
    requires post == [] || IsStop(post[0])
    ensures h[|before|..|before| + |value|] == value
    ensures forall i :: |before| <= i < |before| + |value| ==> !IsStop(h[i])
    ensures |before| + |value| == |h| || IsStop(h[|before| + |value|])
  {
    var j := |before|;
    assert h[j..j + |value|] == value;
    forall i | j <= i < j + |value| ensures !IsStop(h[i]) {
      assert h[i] == value[i - j];
    }
    assert j + |value| == |h| || h[j + |value|] == post[0];
  }

  // ---------------------------------------------------------------------------
  // What triggerFileDownload makes of the same headers
  // ---------------------------------------------------------------------------

  lemma QuoteEndAt(h: string, i: nat, j: nat)
    requires i <= j <= |h|
    requires forall k :: i <= k < j ==> h[k] != '"'
    requires j == |h| || h[j] == '"'
    ensures QuoteEnd(h, i) == j
  {
  }

  /** The expression matches nowhere before `p`. */
  predicate NoMatchBefore(h: string, p: nat) {
    forall q :: 0 <= q < p ==> DownloadMatchAt(h, q).None?
  }

  lemma FindDownloadMatchAt(h: string, p: nat)
    requires p < |h| && DownloadMatchAt(h, p).Some? && NoMatchBefore(h, p)
    ensures FindDownloadMatch(h, 0) == Some(p)
  {
    var r := FindDownloadMatch(h, 0);
    assert r.Some?;
    assert !(r.value < p) && !(p < r.value);
  }

  /** A prefix without any `f` holds no match start: a match begins with `filename=`. */
  lemma NoMatchInFFree(h: string, pre: string)
    requires |pre| <= |h| && h[..|pre|] == pre && 'f' !in pre
    ensures NoMatchBefore(h, |pre|)
  {
    forall q | 0 <= q < |pre| ensures DownloadMatchAt(h, q).None? {
      assert h[q] == pre[q];
      NoMatchUnlessKey(h, q);
    }
  }

  /** The text between the first matching `filename=` and the next `"` (or the end),
      with one optional opening quote skipped: `filename="name"` gives `name`, and an
      unquoted value keeps everything up to the next `"`, trailing parameters included.
      The prefix may hold anything the expression does not match, such as another
      parameter or an empty `filename=""`. */
  lemma {:induction false} FileDownloadValue(pre: string, quote: bool, value: string, post: string)
    requires NoMatchBefore(pre + "filename=" + (if quote then "\"" else "") + value + post, |pre|)
    requires value != [] && '"' !in value
    requires post == [] || post[0] == '"'
    ensures FileDownloadFilename(Some(pre + "filename=" + (if quote then "\"" else "") + value + post)) == value
  {
    var open := if quote then "\"" else "";
    var h := pre + "filename=" + open + value + post;
    var p := |pre|;
    var i := p + 9 + |open|;
    var j := i + |value|;
    DownloadValueLayout(h, pre + "filename=", open, value, post);
    DownloadKey(h, pre, pre + "filename=");
    assert h == pre + "filename=" + (if quote then "\"" else "") + value + post;
    DownloadMatchOf(h, p, i, j);
    FindDownloadMatchAt(h, p);
    FileDownloadOfMatch(h, p, i, j);
  }

  /** The name is the capture of the leftmost match. */
  lemma FileDownloadOfMatch(h: string, p: nat, i: nat, j: nat)
    requires p < |h| && FindDownloadMatch(h, 0) == Some(p) && DownloadMatchAt(h, p) == Some((i, j))
    ensures FileDownloadFilename(Some(h)) == h[i..j]
  {
  }

  /** A `filename=` key at `p`, an optional quote, and a quote-free run from `i` to `j`. */
  lemma DownloadMatchOf(h: string, p: nat, i: nat, j: nat)
    requires p + 9 <= |h| && h[p..p + 9] == "filename="
    requires i == p + 9 || (i == p + 10 && p + 9 < |h| && h[p + 9] == '"')
    requires i == p + 9 ==> p + 9 == |h| || h[p + 9] != '"'
    requires i < j <= |h|
    requires forall k :: i <= k < j ==> h[k] != '"'
    requires j == |h| || h[j] == '"'
    ensures DownloadMatchAt(h, p) == Some((i, j))
  {
    QuoteEndAt(h, i, j);
  }

  lemma DownloadValueLayout(h: string, before: string, open: string, value: string, post: string)
    requires h == before + open + value + post && |before| >= 1
    requires open == "" || open == "\""
    requires value != [] && '"' !in value
    requires post == [] || post[0] == '"'
    ensures var i := |before| + |open|;
            && h[i..i + |value|] == value
            && (forall k :: i <= k < i + |value| ==> h[k] != '"')
            && (i + |value| == |h| || h[i + |value|] == '"')
            && (h[|before|] == '"' <==> open == "\"")
            && h[..|before|] == before
  {
    var i := |before| + |open|;
    assert h == (before + open) + value + post;
    forall k | i <= k < i + |value| ensures h[k] != '"' {
      assert h[k] == value[k - i];
    }
    if open == "" {
      assert h[|before|] == value[0];
    }
    if post != [] {
      assert h[i + |value|] == post[0];
    }
  }

  lemma DownloadKey(h: string, pre: string, before: string)
    requires before == pre + "filename=" && |before| <= |h| && h[..|before|] == before
    ensures h[|pre|..|pre| + 9] == "filename="
  {
    assert h[..|pre|] == before[..|pre|] == pre;
    assert h[|pre|..|pre| + 9] == before[|pre|..];
  }

  /** The expression matches nowhere from `p` on. */
  predicate NoMatchFrom(h: string, p: nat) {
    forall q :: p <= q <= |h| ==> DownloadMatchAt(h, q).None?
  }

  /** `filename*=` is never a match: the expression needs `=` right after `filename`. */
  lemma ExtendedKeyNoMatch(h: string, q: nat)
    requires q + 10 <= |h| && h[q..q + 10] == "filename*="
    ensures DownloadMatchAt(h, q).None?
  {
    assert h[q + 8] == h[q..q + 10][8] == '*';
    if q + 9 <= |h| {
      assert h[q..q + 9][8] == '*';
    }
  }

  /** `filename=""` is never a match: the expression needs a character other than `"`
      after the optional opening quote. */
  lemma EmptyValueNoMatch(h: string, q: nat)
    requires q + 11 <= |h| && h[q..q + 11] == "filename=\"\""
    ensures DownloadMatchAt(h, q).None?
  {
    assert h[q..q + 9] == h[q..q + 11][..9];
    assert h[q + 9] == h[q..q + 11][9] == '"';
    assert h[q + 10] == h[q..q + 11][10] == '"';
    assert QuoteEnd(h, q + 10) == q + 10;
  }

  /** Inside a key no match begins except at its first character, the key's only `f`. */
  lemma NoMatchInsideKey(h: string, pre: string, key: string, q: nat)
    requires |pre| + |key| <= |h| && h[|pre|..|pre| + |key|] == key
    requires |key| >= 1 && 'f' !in key[1..]
    requires |pre| < q < |pre| + |key|
    ensures DownloadMatchAt(h, q).None?
  {
    assert h[q] == key[q - |pre|] == key[1..][q - |pre| - 1];
    NoMatchUnlessKey(h, q);
  }

  /** A header whose only candidate is `filename*=` gets the default name: the extended
      parameter is not recognised at all. The prefix and the text after the key may hold
      anything the expression does not match. */
  lemma {:induction false} FileDownloadExtendedDefault(pre: string, post: string)
    requires NoMatchBefore(pre + "filename*=" + post, |pre|)
    requires NoMatchFrom(pre + "filename*=" + post, |pre| + 10)
    ensures FileDownloadFilename(Some(pre + "filename*=" + post)) == FileDownloadDefault
  {
    var h := pre + "filename*=" + post;
    var key := "filename*=";
    assert h[|pre|..|pre| + 10] == key;
    forall q | 0 <= q <= |h| ensures DownloadMatchAt(h, q).None? {
      if q == |pre| {
        ExtendedKeyNoMatch(h, q);
      } else if |pre| < q < |pre| + 10 {
        NoMatchInsideKey(h, pre, key, q);
      }
    }
  }

  /** A header whose only candidate is an empty `filename=""` gets the default name. */
  lemma {:induction false} FileDownloadEmptyDefault(pre: string, post: string)
    requires NoMatchBefore(pre + "filename=\"\"" + post, |pre|)
    requires NoMatchFrom(pre + "filename=\"\"" + post, |pre| + 11)
    ensures FileDownloadFilename(Some(pre + "filename=\"\"" + post)) == FileDownloadDefault
  {
    var h := pre + "filename=\"\"" + post;
    var key := "filename=\"\"";
    assert h[|pre|..|pre| + 11] == key;
    forall q | 0 <= q <= |h| ensures DownloadMatchAt(h, q).None? {
      if q == |pre| {
        EmptyValueNoMatch(h, q);
      } else if |pre| < q < |pre| + 11 {
        NoMatchInsideKey(h, pre, key, q);
      }
    }
  }

  /** Text without any `f` from `p` on holds no match start. */
  lemma NoMatchInFFreeSuffix(h: string, p: nat)
    requires p <= |h| && 'f' !in h[p..]
    ensures NoMatchFrom(h, p)
  {
    forall q | p <= q <= |h| ensures DownloadMatchAt(h, q).None? {
      if q < |h| {
        assert h[q] == h[p..][q - p];
      }
      NoMatchUnlessKey(h, q);
    }
  }

  lemma NoMatchUnlessKey(h: string, q: nat)
    ensures q >= |h| || h[q] != 'f' ==> DownloadMatchAt(h, q).None?
  {
    if q + 9 <= |h| {
      assert h[q..q + 9][0] == h[q];
    }
  }
}

=== FILE: crypto_rc5.dfy ===
/** The RC5 API wrappers of `src/api/cryptoRC5.js`: the name sent back as
    `original_filename` when a file is decrypted, the shared shape of the four
    file-producing operations, and the delegation of the two text operations. */
module CryptoRc5 {
  import opened Wrappers
  import Text
  import Uri
  import FileNames
  import ExecuteRequest
  import Saving
  import ContentDisposition

  const EncryptedSuffix := "_encrypted"

  /** `original_filename` in `decryptFile`: when the text before the last dot ends with
      `_encrypted`, those ten characters are cut and the extension, dot included, is kept;
      any other name is sent unchanged. */
  function OriginalFilename(name: string): (r: string)
    ensures r == name || |r| == |name| - |EncryptedSuffix|
  {
    if '.' in name then
      var namePart := FileNames.Stem(name);
      var extPart := FileNames.DotExtension(name);
      if Text.EndsWith(namePart, EncryptedSuffix) then namePart[..|namePart| - 10] + extPart
      else name
    else name
  }

  /** Stripping undoes the suffix an encryption adds: `stem_encrypted.ext` gives back
      `stem.ext`, whatever dots `stem` holds, as long as `ext` has none. */
  lemma StripsEncryptedSuffix(stem: string, ext: string)
    requires '.' !in ext
    ensures OriginalFilename(stem + EncryptedSuffix + "." + ext) == stem + "." + ext
  {
    var name := stem + EncryptedSuffix + "." + ext;
    FileNames.SplitAppended(stem + EncryptedSuffix, ext);
    assert name[|stem| + 10] == '.';
    Text.EndsWithAppend(stem, EncryptedSuffix);
    assert (stem + EncryptedSuffix)[..|stem|] == stem;
  }

  /** Only one suffix is stripped: `x_encrypted_encrypted.rc5` becomes `x_encrypted.rc5`. */
  lemma StripsOnce(x: string)
    ensures OriginalFilename(x + EncryptedSuffix + EncryptedSuffix + ".rc5") == x + EncryptedSuffix + ".rc5"
  {
    var ext := "rc5";
    assert '.' !in ext;
    assert x + EncryptedSuffix + EncryptedSuffix + ".rc5" == (x + EncryptedSuffix) + EncryptedSuffix + "." + ext;
    assert (x + EncryptedSuffix) + "." + ext == x + EncryptedSuffix + ".rc5";
    StripsEncryptedSuffix(x + EncryptedSuffix, ext);
  }

  /** A name whose stem does not end with the suffix, or that has no dot at all, is sent
      unchanged; in particular only the last dot splits, so `a_encrypted.tar.rc5` stays. */
  lemma UnchangedOtherwise(name: string)
    requires '.' !in name || !Text.EndsWith(FileNames.Stem(name), EncryptedSuffix)
    ensures OriginalFilename(name) == name
  {
  }

  /** When a name does change, it lost exactly the ten characters before its last dot. */
  lemma ChangedMeansStripped(name: string)
    requires OriginalFilename(name) != name
    ensures exists stem, ext :: '.' !in ext && name == stem + EncryptedSuffix + "." + ext
                                && OriginalFilename(name) == stem + "." + ext
  {
    FileNames.StemAndExtension(name);
    var namePart := FileNames.Stem(name);
    var extPart := FileNames.DotExtension(name);
    assert OriginalFilename(name) == namePart[..|namePart| - 10] + extPart;
    var stem, ext := StrippedShape(name, namePart, extPart);
  }

  /** The pieces of a name whose stem ends with the suffix. */
  lemma StrippedShape(name: string, namePart: string, extPart: string) returns (stem: string, ext: string)
    requires name == namePart + extPart
    requires Text.EndsWith(namePart, EncryptedSuffix)
    requires extPart != "" && extPart[0] == '.' && '.' !in extPart[1..]
    ensures '.' !in ext && name == stem + EncryptedSuffix + "." + ext
    ensures namePart[..|namePart| - 10] + extPart == stem + "." + ext
  {
    stem := namePart[..|namePart| - 10];
    ext := extPart[1..];
    assert namePart == stem + EncryptedSuffix;
    assert extPart == "." + ext;
  }

  // ---------------------------------------------------------------------------
  // Operation results
  // ---------------------------------------------------------------------------

  /** What a blob operation (`encryptFile`, `decryptFile`, `encryptTextToFile`) resolves to:
      `{ success: true }`, together with the save it performed. */
  datatype Saved = Saved(run: Saving.Run)

  /** A blob operation, given how the POST settled: the response is handed to
      `triggerSaveAs`, and anything thrown on the way, a `URIError` from the name's
      decoding included, is turned into an `ApiError` by `handleError`. */
  function BlobOperation(settled: Result<ExecuteRequest.Response, ExecuteRequest.RawError>, browser: Saving.Browser)
    : (r: Result<Saved, ExecuteRequest.ApiError>)
    ensures settled.Failure? ==> r == Failure(ExecuteRequest.HandleError(settled.error))
    ensures settled.Success? ==>
              (r.Success? <==> Saving.TriggerSaveAs(settled.value, browser).Success?)
    ensures settled.Success? && r.Success? ==> r.value.run == Saving.TriggerSaveAs(settled.value, browser).value
    ensures settled.Success? && r.Failure? ==> r.error == ExecuteRequest.ApiError(None, Uri.UriMalformed)
  {
    match settled
    case Failure(e) => Failure(ExecuteRequest.HandleError(e))
    case Success(response) =>
      match Saving.TriggerSaveAs(response, browser)
      case Success(run) => Success(Saved(run))
      case Failure(uriError) => Failure(ExecuteRequest.HandleError(ExecuteRequest.PlainError(uriError.Message())))
  }

  /** A cancelled picker still counts as success: the operation resolves to `{ success: true }`. */
  lemma CancelledSaveSucceeds(response: ExecuteRequest.Response, p: Saving.Picker)
    requires p.show == Saving.Rejects(Saving.AbortError)
    requires Saving.TriggerSaveAs(response, Saving.HasPicker(p)).Success?
    ensures var r := BlobOperation(Success(response), Saving.HasPicker(p));
            r.Success? && r.value.run.outcome == Saving.Cancelled
  {
  }

  /** A malformed escape in the header name surfaces as an `ApiError` without a status. */
  lemma MalformedNameIsApiError(response: ExecuteRequest.Response, browser: Saving.Browser)
    requires ContentDisposition.SaveAsFilename(Saving.DispositionHeader(response)).Failure?
    ensures BlobOperation(Success(response), browser) == Failure(ExecuteRequest.ApiError(None, "URI malformed"))
  {
  }

  /** `encryptText`, `decryptText` and `decryptFileToText`: `executeRequest` with success
      status 200 and default payload "Success", so a success never carries a falsy value. */
  function TextOperation(settled: Result<ExecuteRequest.Response, ExecuteRequest.RawError>)
    : (r: Result<ExecuteRequest.Body, ExecuteRequest.ApiError>)
    ensures r.Success? <==> settled.Success? && settled.value.status == 200
    ensures r.Success? ==> ExecuteRequest.Truthy(r.value)
    ensures r.Success? && ExecuteRequest.Truthy(settled.value.data) ==> r.value == settled.value.data
    ensures r.Success? && !ExecuteRequest.Truthy(settled.value.data) ==> r.value == ExecuteRequest.TextValue("Success")
    ensures settled.Failure? ==> r == Failure(ExecuteRequest.HandleError(settled.error))
    ensures r.Failure? ==> r.error.message != ""
  {
    var r := ExecuteRequest.Execute(settled, 200, "Success");
    if r.Success? then
      ExecuteRequest.ExecuteSuccessIsTruthy(settled, 200, "Success");
      r
    else r
  }

  /** A reply with another status than 200 fails without a status of its own, and the
      status it did carry can be read back from the message. */
  lemma TextStatusMismatch(response: ExecuteRequest.Response)
    requires response.status != 200
    ensures var r := TextOperation(Success(response));
            && r.Failure? && r.error.status.None?
            && ExecuteRequest.StatusAfter(ExecuteRequest.UnexpectedPrefix, r.error.message) == Some(response.status)
  {
  }

  /** A text reply with status 200 hands its text back unchanged; an empty one becomes
      "Success". */
  lemma TextReplyReturned(headers: map<string, string>, text: string)
    ensures var r := TextOperation(Success(ExecuteRequest.Response(200, headers, ExecuteRequest.TextValue(text))));
            r == Success(ExecuteRequest.TextValue(if text == "" then "Success" else text))
  {
  }
}

=== FILE: execute_request.dfy ===
/** The error normalisation and success check of `src/utils/executeRequest.js`.

    `handleError` always throws; it is modelled as the total function `HandleError` that
    yields the `ApiError` it throws. A thrown value reaches it as a `RawError`: an axios
    error carries a `response` (the server replied) and/or a `request` (it was sent), an
    ordinary `Error` carries neither. */
module ExecuteRequest {
  import opened Wrappers
  import opened Numerals
  import Uri

  /** A response body, as axios hands it over, reduced to what the client inspects. */
  datatype Body =
    | Nothing                                   // undefined or null
    | BoolValue(b: bool)
    | NumberValue(n: int)
    | TextValue(s: string)
    | ObjectValue(message: Option<string>)      // parsed JSON object and its string `message` field
    | BlobValue(bytes: seq<Uri.Byte>, mime: string)

  /** JavaScript truthiness of a body. Objects and Blobs are always truthy. */
  predicate Truthy(b: Body) {
    match b
    case Nothing => false
    case BoolValue(v) => v
    case NumberValue(n) => n != 0
    case TextValue(s) => s != ""
    case ObjectValue(_) => true
    case BlobValue(_, _) => true
  }

  /** `data?.message` when it is truthy. A Blob has no `message` property: its
      content is never read here, whatever its MIME type. */
  function BodyMessage(b: Body): Option<string> {
    match b
    case ObjectValue(Some(m)) => if m != "" then Some(m) else None
    case _ => None
  }

  datatype Response = Response(status: int, headers: map<string, string>, data: Body)

  /** The thrown value `handleError` receives. */
  datatype RawError = RawError(response: Option<Response>, request: bool, message: string)

  /** A plain `new Error(message)`: neither a response nor a request. */
  function PlainError(message: string): RawError {
    RawError(None, false, message)
  }

  /** The error every API wrapper surfaces; `status` is `null` unless the server replied. */
  datatype ApiError = ApiError(status: Option<int>, message: string)

  const NoResponseMessage := "No response from the server. Please try again later."
  const UnknownErrorMessage := "An unknown error occurred."
  const UnhandledPrefix := "Unhandled response status: "
  const UnexpectedPrefix := "Unexpected response status: "

  /** The fixed message table, keyed by HTTP status. */
  function StatusMessage(status: int): Option<string> {
    if status == 400 then Some("Incorrect data.")
    else if status == 401 then Some("Unauthorized: Invalid access token.")
    else if status == 403 then Some("Forbidden: You are not allowed to perform this action.")
    else if status == 404 then Some("Resource not found.")
    else if status == 500 then Some("Internal Server Error: Something went wrong on the server.")
    else None
  }

  /** The number after `prefix`, when `msg` is `prefix` followed by a rendered integer. */
  function StatusAfter(prefix: string, msg: string): Option<int> {
    if |prefix| <= |msg| && msg[..|prefix|] == prefix then ParseInt(msg[|prefix|..]) else None
  }

  lemma StatusAfterRendered(prefix: string, status: int)
    ensures StatusAfter(prefix, prefix + IntToString(status)) == Some(status)
  {
    var msg := prefix + IntToString(status);
    assert msg[..|prefix|] == prefix;
    assert msg[|prefix|..] == IntToString(status);
    ParseIntToString(status);
  }

  /** `handleError(error)`: the `ApiError` it throws. A reply wins over a sent request,
      and within a reply the status table wins over the body's own message. */
  function HandleError(e: RawError): (r: ApiError)
    ensures r.status.Some? <==> e.response.Some?
    ensures e.response.Some? ==> r.status == Some(e.response.value.status)
    ensures r.message != ""
    ensures e.response.Some? && StatusMessage(e.response.value.status).Some? ==>
              r.message == StatusMessage(e.response.value.status).value
    ensures e.response.Some? && StatusMessage(e.response.value.status).None? ==>
              r.message == BodyMessage(e.response.value.data).GetOr(
                             UnhandledPrefix + IntToString(e.response.value.status))
    ensures e.response.None? && e.request ==> r.message == NoResponseMessage
    ensures e.response.None? && !e.request ==>
              r.message == (if e.message != "" then e.message else UnknownErrorMessage)
  {
    match e.response
    case Some(resp) =>
      var msg :=
        match StatusMessage(resp.status)
        case Some(m) => m
        case None =>
          match BodyMessage(resp.data)
          case Some(m) => m
          case None => UnhandledPrefix + IntToString(resp.status);
      ApiError(Some(resp.status), msg)
    case None =>
      if e.request then ApiError(None, NoResponseMessage)
      else ApiError(None, if e.message != "" then e.message else UnknownErrorMessage)
  }

  /** A reply decides the error alone: whether a request is also recorded, and the
      error's own message, make no difference. */
  lemma ResponseBeatsRequest(resp: Response, request: bool, message: string)
    ensures HandleError(RawError(Some(resp), request, message)) == HandleError(RawError(Some(resp), false, ""))
  {
  }

  /** For a status in the table, the body is never consulted. */
  lemma TableBeatsBody(status: int, headers: map<string, string>, data: Body, request: bool, message: string)
    requires StatusMessage(status).Some?
    ensures HandleError(RawError(Some(Response(status, headers, data)), request, message))
         == ApiError(Some(status), StatusMessage(status).value)
  {
  }

  /** A Blob error body is never decoded: it yields what no body at all yields. */
  lemma BlobBodyNeverDecoded(status: int, headers: map<string, string>, bytes: seq<Uri.Byte>, mime: string)
    ensures HandleError(RawError(Some(Response(status, headers, BlobValue(bytes, mime))), false, ""))
         == HandleError(RawError(Some(Response(status, headers, Nothing)), false, ""))
  {
  }

  /** For a status outside the table and no usable body message, the status can be read
      back from the message. */
  lemma UnhandledStatusRecoverable(resp: Response)
    requires StatusMessage(resp.status).None? && BodyMessage(resp.data).None?
    ensures StatusAfter(UnhandledPrefix, HandleError(RawError(Some(resp), false, "")).message) == Some(resp.status)
  {
    StatusAfterRendered(UnhandledPrefix, resp.status);
  }

  /** `executeRequest(request, successStatus, successMessage)`, given how `request()`
      settled: with a response, or by throwing. */
  function Execute(settled: Result<Response, RawError>, successStatus: int, successMessage: string)
    : (r: Result<Body, ApiError>)
    ensures r.Success? <==> settled.Success? && settled.value.status == successStatus
    ensures r.Success? && Truthy(settled.value.data) ==> r.value == settled.value.data
    ensures r.Success? && !Truthy(settled.value.data) ==> r.value == TextValue(successMessage)
    ensures settled.Failure? ==> r == Failure(HandleError(settled.error))
    ensures settled.Success? && settled.value.status != successStatus ==>
              r.Failure? && r.error == ApiError(None, UnexpectedPrefix + IntToString(settled.value.status)) &&
              StatusAfter(UnexpectedPrefix, r.error.message) == Some(settled.value.status)
  {
    match settled
    case Failure(e) => Failure(HandleError(e))
    case Success(resp) =>
      if resp.status == successStatus then
        Success(if Truthy(resp.data) then resp.data else TextValue(successMessage))
      else
        StatusAfterRendered(UnexpectedPrefix, resp.status);
        Failure(HandleError(PlainError(UnexpectedPrefix + IntToString(resp.status))))
  }

  /** With a non-empty default payload, a successful call never yields a falsy value. */
  lemma ExecuteSuccessIsTruthy(settled: Result<Response, RawError>, successStatus: int, successMessage: string)
    requires successMessage != ""
    requires Execute(settled, successStatus, successMessage).Success?
    ensures Truthy(Execute(settled, successStatus, successMessage).value)
  {
  }
}

=== FILE: file_names.dfy ===
/** The split of a file name at its last dot, shared by `decryptFile` in
    `src/api/cryptoRC5.js` and the `handleDownload` handlers of `src/pages/Lab2.jsx`
    and `src/pages/lab5.jsx`. */
module FileNames {
  import Text

  /** `name.substring(0, name.lastIndexOf("."))` when there is a dot, else the whole name. */
  function Stem(name: string): (r: string)
    ensures |r| <= |name| && r == name[..|r|]
  {
    var d := Text.LastIndexOf(name, '.');
    if d > -1 then name[..d] else name
  }

  /** `name.substring(name.lastIndexOf("."))` when there is a dot (the dot included), else "". */
  function DotExtension(name: string): (r: string)
    ensures |r| <= |name| && r == name[|name| - |r|..]
  {
    var d := Text.LastIndexOf(name, '.');
    if d > -1 then name[d..] else ""
  }

  /** The two parts put back together give the name, and the extension part is either
      empty (no dot at all) or a dot followed by dot-free text. */
  lemma StemAndExtension(name: string)
    ensures Stem(name) + DotExtension(name) == name
    ensures DotExtension(name) == "" <==> '.' !in name
    ensures DotExtension(name) != "" ==> DotExtension(name)[0] == '.' && '.' !in DotExtension(name)[1..]
  {
    var d := Text.LastIndexOf(name, '.');
    if d > -1 {
      assert name[..d] + name[d..] == name;
      var e := name[d..];
      forall k | 0 <= k < |e[1..]| ensures e[1..][k] != '.' {
        assert e[1..][k] == name[d + 1 + k];
      }
    } else {
      assert forall k :: 0 <= k < |name| ==> name[k] != '.';
    }
  }

  /** Splitting `stem + "." + ext` at its last dot gives back `stem` and `"." + ext`
      when `ext` has no dot; `stem` itself may contain dots. */
  lemma {:induction false} SplitAppended(stem: string, ext: string)
    requires '.' !in ext
    ensures Stem(stem + "." + ext) == stem
    ensures DotExtension(stem + "." + ext) == "." + ext
  {
    var s := stem + "." + ext;
    assert s[|stem|] == '.';
    forall j | |stem| < j < |s| ensures s[j] != '.' {
      assert s[j] == ext[j - |stem| - 1];
    }
    var d := Text.LastIndexOf(s, '.');
    assert d == |stem|;
    assert s[..d] == stem;
    assert s[d..] == "." + ext;
  }

  /** A name without a dot is its own stem. */
  lemma StemWithoutDot(name: string)
    requires '.' !in name
    ensures Stem(name) == name && DotExtension(name) == ""
  {
    StemAndExtension(name);
  }
}

=== FILE: header_examples.dfy ===
/** Concrete `Content-Disposition` headers run through both filename extractors.
    Each header is a parameter pinned by its precondition, and each example first
    places it under the general lemma about its shape. */
module HeaderExamples {
  import opened Wrappers
  import Uri
  import opened ContentDisposition

  /** The usual `attachment; ` disposition type holds no key and no match. */
  lemma AttachmentPrefix(h: string)
    requires |h| >= 12 && h[..12] == "attachment; "
    ensures NoKeyBefore(h, 12) && NoMatchBefore(h, 12)
  {
    var pre := "attachment; ";
    assert 'f' !in pre;
    NoKeyInFFree(h, pre);
    NoMatchInFFree(h, pre);
  }

  /** A prefix whose own `f` starts no key: `form-data; ` as a multipart part header. */
  lemma FormDataPrefix(h: string)
    requires |h| >= 11 && h[..11] == "form-data; "
    ensures NoKeyBefore(h, 11) && NoMatchBefore(h, 11)
  {
    var rest := "orm-data; ";
    assert 'f' !in rest;
    assert h[1] == 'o';
    NoKeyInFFree(h[1..], rest);
    NoMatchInFFree(h[1..], rest);
    forall q | 0 <= q < 11 ensures KeyEnd(h, q).None? && DownloadMatchAt(h, q).None? {
      if q == 0 {
        if |h| >= 9 { assert h[..9][1] == 'o'; }
      } else {
        ShiftedKey(h, q);
      }
    }
  }

  /** Key and match starts are positions in the text, wherever it begins. */
  lemma ShiftedKey(h: string, q: nat)
    requires 1 <= q <= |h|
    ensures KeyEnd(h, q).Some? <==> KeyEnd(h[1..], q - 1).Some?
    ensures DownloadMatchAt(h, q).Some? <==> DownloadMatchAt(h[1..], q - 1).Some?
  {
    if q + 8 <= |h| { SliceShift(h, q, q + 8); }
    if q + 9 <= |h| { SliceShift(h, q, q + 9); }
    if q + 10 <= |h| { SliceShift(h, q, q + 10); }
    if q + 9 <= |h| && h[q..q + 9] == "filename=" {
      var i := if q + 9 < |h| && h[q + 9] == '"' then q + 10 else q + 9;
      ShiftedQuoteEnd(h, i);
    }
  }

  lemma SliceShift(h: string, a: nat, b: nat)
    requires 1 <= a <= b <= |h|
    ensures h[a..b] == h[1..][a - 1..b - 1]
  {
    var t := h[1..];
    forall k | 0 <= k < b - a ensures h[a..b][k] == t[a - 1..b - 1][k] {
      assert t[a - 1 + k] == h[a + k];
    }
  }

  lemma {:induction false} ShiftedQuoteEnd(h: string, i: nat)
    requires 1 <= i <= |h|
    ensures QuoteEnd(h, i) == QuoteEnd(h[1..], i - 1) + 1
    decreases |h| - i
  {
    if i < |h| && h[i] != '"' {
      ShiftedQuoteEnd(h, i + 1);
    }
  }

  /** A part header of a multipart form names its file the same way. */
  lemma SaveAsFormDataExample(h: string)
    requires h == "form-data; filename=\"a.txt\""
    ensures SaveAsFilename(Some(h)) == Success("a.txt")
  {
    assert h == "form-data; " + "filename=\"" + "a.txt" + "\"" + "";
    FormDataPrefix(h);
    SaveAsQuotedPlain("form-data; ", "a.txt", "");
  }

  /** The download names the same part header's file alike. */
  lemma FileDownloadFormDataExample(h: string)
    requires h == "form-data; filename=\"a.txt\""
    ensures FileDownloadFilename(Some(h)) == "a.txt"
  {
    assert h == "form-data; " + "filename=" + "\"" + "a.txt" + "\"";
    FormDataPrefix(h);
    FileDownloadValue("form-data; ", true, "a.txt", "\"");
  }

  lemma ExtendedInstance(h: string, v: string)
    requires h == "attachment; filename*=UTF-8''na%C3%AFve.txt"
    requires v == "na%C3%AFve.txt"
    ensures SaveAsFilename(Some(h)) ==
      match Uri.DecodeUriComponent(v)
      case Some(d) => Success(d)
      case None => Failure(Uri.UriError)
  {
    ExtendedShape(h, v);
    AttachmentPrefix(h);
    SaveAsExtended("attachment; ", '8', v, "");
  }

  lemma ExtendedShape(h: string, v: string)
    requires h == "attachment; filename*=UTF-8''na%C3%AFve.txt" && v == "na%C3%AFve.txt"
    ensures h == "attachment; " + "filename*=UTF-" + ['8'] + "''" + v + ""
    ensures v != "" && forall k :: 0 <= k < |v| ==> !IsStop(v[k])
  {
    var key := "attachment; filename*=UTF-8''";
    assert h == key + v;
    assert key == "attachment; " + "filename*=UTF-" + ['8'] + "''";
    ExtendedValueScans(v);
  }

  lemma ExtendedValueScans(v: string)
    requires v == "na%C3%AFve.txt"
    ensures v != "" && forall k :: 0 <= k < |v| ==> !IsStop(v[k])
  {
  }

  /** A UTF-8 name with one two-byte character: `filename*=UTF-8''na%C3%AFve.txt` names "naïve.txt". */
  lemma SaveAsNaiveExample(h: string)
    requires h == "attachment; filename*=UTF-8''na%C3%AFve.txt"
    ensures SaveAsFilename(Some(h)) == Success("na\U{00EF}ve.txt")
  {
    Uri.NaiveDecoding();
    ExtendedInstance(h, "na%C3%AFve.txt");
  }

  /** The plain quoted form. */
  lemma SaveAsReportExample(h: string)
    requires h == "attachment; filename=\"report.txt\""
    ensures SaveAsFilename(Some(h)) == Success("report.txt")
  {
    assert h == "attachment; " + "filename=\"" + "report.txt" + "\"" + "";
    AttachmentPrefix(h);
    SaveAsQuotedPlain("attachment; ", "report.txt", "");
  }

  /** A `%` that starts no escape makes `triggerSaveAs` throw. */
  lemma SaveAsMalformedExample(h: string)
    requires h == "attachment; filename=\"50%off.txt\""
    ensures SaveAsFilename(Some(h)).Failure?
  {
    var name := "50%off.txt";
    Uri.BadEscapeFails(name, 2);
    MalformedShape(h, name);
    AttachmentPrefix(h);
    SaveAsQuoted("attachment; ", name, "");
  }

  lemma MalformedShape(h: string, name: string)
    requires h == "attachment; filename=\"50%off.txt\"" && name == "50%off.txt"
    ensures h == "attachment; " + "filename=\"" + name + "\"" + ""
    ensures name != "" && !StartsLikeCharset(name)
    ensures forall k :: 0 <= k < |name| ==> !IsStop(name[k])
  {
  }

  /** `triggerFileDownload` takes the quoted name without its quotes. */
  lemma FileDownloadQuotedExample(h: string)
    requires h == "attachment; filename=\"x.rc5\""
    ensures FileDownloadFilename(Some(h)) == "x.rc5"
  {
    assert h == "attachment; " + "filename=" + "\"" + "x.rc5" + "\"";
    AttachmentPrefix(h);
    FileDownloadValue("attachment; ", true, "x.rc5", "\"");
  }

  /** An unquoted value runs on to the end of the header, later parameters included. */
  lemma FileDownloadUnquotedExample(h: string)
    requires h == "attachment; filename=x.rc5; size=3"
    ensures FileDownloadFilename(Some(h)) == "x.rc5; size=3"
  {
    assert h == "attachment; " + "filename=" + "" + "x.rc5; size=3" + "";
    AttachmentPrefix(h);
    FileDownloadValue("attachment; ", false, "x.rc5; size=3", "");
  }

  /** An empty quoted name falls back to the default. */
  lemma FileDownloadEmptyExample(h: string)
    requires h == "attachment; filename=\"\""
    ensures FileDownloadFilename(Some(h)) == FileDownloadDefault
  {
    assert h == "attachment; " + "filename=\"\"" + "";
    AttachmentPrefix(h);
    NoMatchInFFreeSuffix(h, |h|);
    FileDownloadEmptyDefault("attachment; ", "");
  }

  /** The extended `filename*=` parameter is not recognised: the default is used. */
  lemma FileDownloadExtendedExample(h: string)
    requires h == "attachment; filename*=UTF-8''a"
    ensures FileDownloadFilename(Some(h)) == FileDownloadDefault
  {
    assert h == "attachment; " + "filename*=" + "UTF-8''a";
    AttachmentPrefix(h);
    ExtendedSuffix(h, 22);
    FileDownloadExtendedDefault("attachment; ", "UTF-8''a");
  }

  lemma ExtendedSuffix(h: string, p: nat)
    requires p <= |h| && h[p..] == "UTF-8''a"
    ensures NoMatchFrom(h, p)
  {
    assert 'f' !in h[p..];
    NoMatchInFFreeSuffix(h, p);
  }

  /** With an earlier parameter whose name holds an `f`, the extended parameter is still
      not recognised. */
  lemma FileDownloadModificationDateExample(h: string)
    requires h == "attachment; modification-date=\"x\"; filename*=UTF-8''a"
    ensures FileDownloadFilename(Some(h)) == FileDownloadDefault
  {
    ModificationDateShape(h);
    ModificationDatePieces();
    ExtendedAfterOneF("attachment; modi", "ication-date=\"x\"; ", "UTF-8''a");
  }

  lemma ModificationDateShape(h: string)
    requires h == "attachment; modification-date=\"x\"; filename*=UTF-8''a"
    ensures h == "attachment; modi" + "f" + "ication-date=\"x\"; " + "filename*=" + "UTF-8''a"
  {
  }

  lemma ModificationDatePieces()
    ensures 'f' !in "attachment; modi" && 'f' !in "ication-date=\"x\"; " && 'f' !in "UTF-8''a"
    ensures "ication-date=\"x\"; "[0] == 'i' && "ication-date=\"x\"; "[1] == 'c'
  {
  }

  /** An `f`-free suffix after a prefix whose only `f` starts no match: `filename*=`
      between them is not recognised. */
  lemma ExtendedAfterOneF(a: string, b: string, post: string)
    requires 'f' !in a && 'f' !in b && 'f' !in post
    requires |b| >= 2 && b[0] == 'i' && b[1] != 'l'
    ensures FileDownloadFilename(Some(a + "f" + b + "filename*=" + post)) == FileDownloadDefault
  {
    var pre := a + "f" + b;
    var h := pre + "filename*=" + post;
    OneFPrefix(h, a, b, "filename*=" + post);
    assert h[|pre| + 10..] == post;
    NoMatchInFFreeSuffix(h, |pre| + 10);
    FileDownloadExtendedDefault(pre, post);
  }

  /** A prefix `a + "f" + b` whose one `f` is not followed by `il` holds no match start. */
  lemma OneFPrefix(h: string, a: string, b: string, rest: string)
    requires h == a + "f" + b + rest && 'f' !in a && 'f' !in b
    requires |b| >= 2 && b[0] == 'i' && b[1] != 'l'
    ensures NoMatchBefore(h, |a| + 1 + |b|)
  {
    var n := |a|;
    forall q | 0 <= q < n + 1 + |b| ensures DownloadMatchAt(h, q).None? {
      if q == n {
        if q + 9 <= |h| {
          assert h[q..q + 9][2] == h[n + 2] == b[1];
        }
      } else {
        assert h[q] != 'f' by {
          if q < n {
            assert h[q] == a[q];
          } else {
            assert h[q] == b[q - n - 1];
          }
        }
        NoMatchUnlessKey(h, q);
      }
    }
  }

  /** An apostrophe inside the quoted name ends the capture: the name is cut short. */
  lemma SaveAsApostropheExample(h: string)
    requires h == "attachment; filename=\"John's report.pdf\""
    ensures SaveAsFilename(Some(h)) == Success("John")
  {
    var name, post := "John", "s report.pdf\"";
    ApostropheShape(h, name, post);
    assert forall k :: 0 <= k < |name| ==> !IsStop(name[k]);
    SaveAsQuotedCut("attachment; ", name, '\'', post);
    Uri.DecodeWithoutEscapes(name);
  }

  lemma ApostropheShape(h: string, name: string, post: string)
    requires h == "attachment; filename=\"John's report.pdf\""
    requires name == "John" && post == "s report.pdf\""
    ensures h == "attachment; " + "filename=\"" + name + ['\''] + post
    ensures NoKeyBefore(h, 12)
  {
    assert h == "attachment; " + "filename=\"" + name + ['\''] + post;
    AttachmentPrefix(h);
  }
}

=== FILE: lab1.dfy ===
/** The file logic of the generator page `src/pages/Lab1.jsx`: the parameter header
    `createHeader` writes, the two ways the page saves numbers (the server's file in
    file mode, the shown sequence in list mode), the `.txt` completion of the name the
    user types, and the first hundred numbers the page shows. */
module Lab1Page {
  import opened Wrappers
  import opened Text
  import Numerals
  import ExecuteRequest
  import Saving

  /** The three build-time variables `REACT_APP_MULTIPLIER`, `REACT_APP_INCREASE` and
      `REACT_APP_COMPARISON_MODULE`, each unset or a string. */
  datatype Env = Env(multiplier: Option<string>, increase: Option<string>, modulus: Option<string>)

  const DefaultMultiplier := 3125
  const DefaultIncrease := 3
  const DefaultModulus := 8191

  /** `process.env.X || fallback` as a template literal renders it: a set, non-empty
      variable verbatim, otherwise the decimal numeral of the fallback. */
  function Setting(v: Option<string>, fallback: nat): (r: string)
    ensures v.Some? && v.value != "" ==> r == v.value
    ensures v.None? || v.value == "" ==> Numerals.ParseNat(r) == Some(fallback) && (|r| == 1 || r[0] != '0')
  {
    if v.Some? && v.value != "" then v.value
    else
      Numerals.ParseNatToString(fallback);
      Numerals.NatToString(fallback)
  }

  function Multiplier(env: Env): string { Setting(env.multiplier, DefaultMultiplier) }
  function Increase(env: Env): string { Setting(env.increase, DefaultIncrease) }
  function Modulus(env: Env): string { Setting(env.modulus, DefaultModulus) }

  /** `createHeader()`. */
  function Header(env: Env): string {
    "MULTIPLIER=" + Multiplier(env) + "\n" + "INCREASE=" + Increase(env) + "\n"
    + "COMPARISON_MODULE=" + Modulus(env) + "\n\n"
  }

  /** The header read line by line: three `KEY=value` lines and the blank line that
      separates them from the numbers. */
  function HeaderLines(env: Env): seq<string> {
    ["MULTIPLIER=" + Multiplier(env), "INCREASE=" + Increase(env),
     "COMPARISON_MODULE=" + Modulus(env), ""]
  }

  /** No setting spans several lines; true of the defaults and of any one-line variable. */
  predicate OneLineSettings(env: Env) {
    '\n' !in Multiplier(env) && '\n' !in Increase(env) && '\n' !in Modulus(env)
  }

  /** Three separator-free lines, a blank line, and then anything: the split yields the
      four lines first. */
  lemma {:induction false} FourLinesThen(l1: string, l2: string, l3: string, body: string)
    requires '\n' !in l1 && '\n' !in l2 && '\n' !in l3
    ensures Split(l1 + "\n" + l2 + "\n" + l3 + "\n\n" + body, '\n') == [l1, l2, l3, ""] + Split(body, '\n')
  {
    var r3 := "" + "\n" + body;
    var r2 := l3 + "\n" + r3;
    var r1 := l2 + "\n" + r2;
    assert "\n\n" + body == "\n" + r3;
    assert l3 + "\n\n" + body == r2;
    assert l2 + "\n" + l3 + "\n\n" + body == r1;
    assert l1 + "\n" + l2 + "\n" + l3 + "\n\n" + body == l1 + "\n" + r1;
    var tail := Split(body, '\n');
    SplitAtSeparator("", body, '\n');
    assert Split(r3, '\n') == [""] + tail;
    SplitAtSeparator(l3, r3, '\n');
    assert Split(r2, '\n') == [l3, ""] + tail;
    SplitAtSeparator(l2, r2, '\n');
    assert Split(r1, '\n') == [l2, l3, ""] + tail;
    SplitAtSeparator(l1, r1, '\n');
  }

  /** Whatever follows the header, splitting the file at newlines gives the header's
      lines first and then the lines of what follows. */
  lemma HeaderThen(env: Env, body: string)
    requires OneLineSettings(env)
    ensures Split(Header(env) + body, '\n') == HeaderLines(env) + Split(body, '\n')
  {
    var m, i, c := Multiplier(env), Increase(env), Modulus(env);
    Regroup("MULTIPLIER=", m, "INCREASE=", i, "COMPARISON_MODULE=", c, body);
    FourLinesThen("MULTIPLIER=" + m, "INCREASE=" + i, "COMPARISON_MODULE=" + c, body);
  }

  lemma Regroup(k1: string, v1: string, k2: string, v2: string, k3: string, v3: string, body: string)
    ensures k1 + v1 + "\n" + k2 + v2 + "\n" + k3 + v3 + "\n\n" + body
            == (k1 + v1) + "\n" + (k2 + v2) + "\n" + (k3 + v3) + "\n\n" + body
  {
  }

  /** The header alone splits into its lines and one more empty line: it ends with "\n\n". */
  lemma HeaderSplits(env: Env)
    requires OneLineSettings(env)
    ensures Split(Header(env), '\n') == HeaderLines(env) + [""]
  {
    HeaderThen(env, "");
    assert Header(env) + "" == Header(env);
  }

  /** Without the variables the header carries the generator's default parameters,
      written as `String` writes them. */
  lemma DefaultSettings(env: Env)
    requires env == Env(None, None, None)
    ensures Multiplier(env) == "3125"
    ensures Increase(env) == "3"
    ensures Modulus(env) == "8191"
  {
    Numerals.NatToStringLiterals();
  }

  // ---------------------------------------------------------------------------
  // File names
  // ---------------------------------------------------------------------------

  const TxtSuffix := ".txt"

  /** `fileName.endsWith(".txt") ? fileName : `${fileName}.txt``. */
  function TxtName(name: string): (r: string)
    ensures EndsWith(r, TxtSuffix)
    ensures r == name || r == name + TxtSuffix
    ensures r == name <==> EndsWith(name, TxtSuffix)
  {
    if EndsWith(name, TxtSuffix) then name
    else
      EndsWithAppend(name, TxtSuffix);
      name + TxtSuffix
  }

  /** Completing a completed name changes nothing. */
  lemma TxtNameIdempotent(name: string)
    ensures TxtName(TxtName(name)) == TxtName(name)
  {
  }

  /** The completed name is the shortest name ending in `.txt` that starts with the typed
      one: either the typed name itself or that name with the suffix appended. */
  lemma TxtNameKeepsTyped(name: string)
    ensures var r := TxtName(name);
            r[..|name|] == name && (|r| == |name| || r[|name|..] == TxtSuffix)
  {
  }

  // ---------------------------------------------------------------------------
  // Saving
  // ---------------------------------------------------------------------------

  /** The anchor download both handlers perform once a name was typed; a cancelled or
      empty prompt saves nothing. */
  function Download(content: string, answer: Option<string>): (es: seq<Saving.Event>)
    ensures es == [] <==> answer.None? || answer.value == ""
    ensures es != [] ==> |es| == 3
    ensures es != [] ==> es[1] == Saving.AnchorClick(TxtName(answer.value))
                         && es[0] == Saving.CreateObjectUrl(ExecuteRequest.TextValue(content))
  {
    if answer.Some? && answer.value != "" then
      Saving.AnchorDownload(ExecuteRequest.TextValue(content), TxtName(answer.value))
    else []
  }

  /** File mode of `onSubmit`: the header put in front of what the server returned,
      saved under the name the prompt gave. */
  function FileModeSave(env: Env, res: string, answer: Option<string>): (es: seq<Saving.Event>)
    ensures es == [] <==> answer.None? || answer.value == ""
    ensures es != [] ==> es[0] == Saving.CreateObjectUrl(ExecuteRequest.TextValue(Header(env) + res))
  {
    Download(Header(env) + res, answer)
  }

  /** What `random(requestData)` resolved to, as each mode reads it: the file text in
      file mode, `res.sequence` in list mode; or the message of the error it threw. */
  datatype GenerateCall = Generated(text: string, sequence: seq<int>) | GenerateThrew(message: string)

  /** The page state `onSubmit` leaves behind: the shown sequence, if any, the error
      message (empty for none), and the browser calls of the file-mode save. */
  datatype Submitted = Submitted(result: Option<seq<int>>, message: string, saved: seq<Saving.Event>)

  const RequestFailed := "Помилка при виконанні запиту"

  /** `onSubmit(data)`, given how the call settles and, in file mode, what the prompt
      answers. */
  function OnSubmit(env: Env, fileMode: bool, call: GenerateCall, answer: Option<string>): (o: Submitted)
    ensures o.result.Some? <==> !fileMode && call.Generated?
    ensures o.result.Some? ==> o.result.value == call.sequence
    ensures o.saved != [] <==> fileMode && call.Generated? && answer.Some? && answer.value != ""
    ensures o.saved != [] ==>
              && |o.saved| == 3
              && o.saved[0] == Saving.CreateObjectUrl(ExecuteRequest.TextValue(Header(env) + call.text))
              && o.saved[1] == Saving.AnchorClick(TxtName(answer.value))
    ensures call.Generated? ==> o.message == ""
    ensures call.GenerateThrew? ==> o.message != "" && (call.message != "" ==> o.message == call.message)
  {
    match call
    case GenerateThrew(m) => Submitted(None, if m != "" then m else RequestFailed, [])
    case Generated(text, sequence) =>
      if fileMode then Submitted(None, "", FileModeSave(env, text, answer))
      else Submitted(Some(sequence), "", [])
  }

  /** A file-mode submission never shows numbers, and a list-mode one never saves. */
  lemma ModesExclusive(env: Env, fileMode: bool, call: GenerateCall, answer: Option<string>)
    ensures var o := OnSubmit(env, fileMode, call, answer);
            !(o.result.Some? && o.saved != [])
  {
  }

  /** The file a file-mode submission saves reads back as the header lines followed by
      the lines of the server's text. */
  lemma FileModeContent(env: Env, text: string, sequence: seq<int>, answer: Option<string>)
    requires OneLineSettings(env)
    requires answer.Some? && answer.value != ""
    ensures var o := OnSubmit(env, true, Generated(text, sequence), answer);
            && o.saved[0].CreateObjectUrl? && o.saved[0].data.TextValue?
            && Split(o.saved[0].data.s, '\n') == HeaderLines(env) + Split(text, '\n')
  {
    HeaderThen(env, text);
  }

  /** `String(n)` of each number, in order. */
  function Rendered(nums: seq<int>): (r: seq<string>)
    ensures |r| == |nums|
    ensures forall k :: 0 <= k < |nums| ==> r[k] == Numerals.IntToString(nums[k])
  {
    seq(|nums|, k requires 0 <= k < |nums| => Numerals.IntToString(nums[k]))
  }

  /** `header + result.join("\n")` in `handleDownload`. */
  function ListContent(env: Env, nums: seq<int>): string {
    Header(env) + Join(Rendered(nums), '\n')
  }

  /** `handleDownload`: nothing without a result (an empty sequence is still a result),
      otherwise the list saved under the name the prompt gave. */
  function ListSave(env: Env, result: Option<seq<int>>, answer: Option<string>): (es: seq<Saving.Event>)
    ensures es == [] <==> result.None? || answer.None? || answer.value == ""
    ensures es != [] ==> es[0] == Saving.CreateObjectUrl(ExecuteRequest.TextValue(ListContent(env, result.value)))
  {
    if result.None? then [] else Download(ListContent(env, result.value), answer)
  }

  /** No rendered number contains a newline. */
  lemma RenderedOneLine(nums: seq<int>)
    ensures forall k :: 0 <= k < |nums| ==> '\n' !in Rendered(nums)[k]
  {
    forall k | 0 <= k < |nums| ensures '\n' !in Rendered(nums)[k] {
      var s := Numerals.IntToString(nums[k]);
      assert forall i :: 0 <= i < |s| ==> s[i] != '\n';
    }
  }

  /** The saved list reads back line by line: the header lines, then one line per number,
      each parsing back to that number. An empty list leaves a single empty line. */
  lemma {:induction false} ListContentLines(env: Env, nums: seq<int>)
    requires OneLineSettings(env)
    ensures Split(ListContent(env, nums), '\n')
            == HeaderLines(env) + (if |nums| == 0 then [""] else Rendered(nums))
  {
    HeaderThen(env, Join(Rendered(nums), '\n'));
    if |nums| > 0 {
      RenderedOneLine(nums);
      SplitJoin(Rendered(nums), '\n');
    } else {
      assert Join(Rendered(nums), '\n') == "";
    }
  }

  /** The numbers are recoverable from the saved file. */
  lemma ListNumbersRecoverable(env: Env, nums: seq<int>)
    requires OneLineSettings(env) && |nums| >= 1
    ensures var lines := Split(ListContent(env, nums), '\n');
            |lines| == 4 + |nums|
            && forall k :: 0 <= k < |nums| ==> Numerals.ParseInt(lines[4 + k]) == Some(nums[k])
  {
    ListContentLines(env, nums);
    NumberLinesParse(Split(ListContent(env, nums), '\n'), HeaderLines(env), nums);
  }

  /** Lines made of four header lines and the rendered numbers parse back to the numbers. */
  lemma NumberLinesParse(lines: seq<string>, header: seq<string>, nums: seq<int>)
    requires |header| == 4 && lines == header + Rendered(nums)
    ensures |lines| == 4 + |nums|
    ensures forall k :: 0 <= k < |nums| ==> Numerals.ParseInt(lines[4 + k]) == Some(nums[k])
  {
    RenderedParse(nums);
    forall k | 0 <= k < |nums| ensures Numerals.ParseInt(lines[4 + k]) == Some(nums[k]) {
      assert lines[4 + k] == Rendered(nums)[k];
    }
  }

  /** Each rendered number parses back to the number. */
  lemma RenderedParse(nums: seq<int>)
    ensures forall k :: 0 <= k < |nums| ==> Numerals.ParseInt(Rendered(nums)[k]) == Some(nums[k])
  {
    forall k | 0 <= k < |nums| ensures Numerals.ParseInt(Rendered(nums)[k]) == Some(nums[k]) {
      Numerals.ParseIntToString(nums[k]);
    }
  }

  /** `join` leaves no trailing newline: a non-empty list's file ends with the last
      number's final digit. */
  lemma ListContentEndsWithDigit(env: Env, nums: seq<int>)
    requires |nums| >= 1
    ensures var c := ListContent(env, nums);
            |c| >= 1 && Numerals.IsDigit(c[|c| - 1])
  {
    var rs := Rendered(nums);
    var last := rs[|rs| - 1];
    assert last == Numerals.IntToString(nums[|nums| - 1]);
    JoinLastChar(rs, '\n');
    LastOfAppend(Header(env), Join(rs, '\n'));
  }

  lemma LastOfAppend(a: string, b: string)
    requires |b| >= 1
    ensures (a + b)[|a + b| - 1] == b[|b| - 1]
  {
  }

  // ---------------------------------------------------------------------------
  // The shown numbers
  // ---------------------------------------------------------------------------

  const PreviewLength := 100

  /** `showAll ? result : result?.slice(0, 100)`. */
  function VisibleData(result: Option<seq<int>>, showAll: bool): (r: Option<seq<int>>)
    ensures r.Some? <==> result.Some?
    ensures showAll ==> r == result
    ensures r.Some? && !showAll ==>
              |r.value| == (if |result.value| < PreviewLength then |result.value| else PreviewLength)
    ensures r.Some? ==> r.value == result.value[..|r.value|]
  {
    if showAll then result
    else
      match result
      case None => None
      case Some(xs) => Some(if |xs| <= PreviewLength then xs else xs[..PreviewLength])
  }

  /** The preview is a prefix of the full view, and all of it when there are at most a
      hundred numbers. */
  lemma PreviewIsPrefix(result: Option<seq<int>>)
    requires result.Some?
    ensures var p := VisibleData(result, false).value;
            var full := VisibleData(result, true).value;
            p <= full && (|full| <= PreviewLength <==> p == full)
  {
  }
}

=== FILE: lab2.dfy ===
/** The hashing page `src/pages/Lab2.jsx`: the checks `onSubmit` makes before it hashes,
    and the download of an MD5 result, with the name it suggests, the two-line report it
    writes, and the page's own `saveFile` (`Saving.PageSaveFile`). */
module Lab2Page {
  import opened Wrappers
  import opened Text
  import FileNames
  import Saving
  import ExecuteRequest

  /** The page's two modes; the state only ever holds "text" or "file". */
  datatype Mode = TextMode | FileMode

  /** What `hash` and `hashFile` resolve to, as far as the download reads it. */
  datatype HashResult = HashResult(hex: string, length: int)

  /** The call `onSubmit` makes: `hash(text)` or `hashFile(file)`. */
  datatype HashRequest = HashText(text: string) | HashFile(file: string)

  /** How that call settled: with a result, or by throwing an error with its message. */
  datatype HashCall = Hashed(result: HashResult) | HashThrew(message: string)

  /** The page state `onSubmit` leaves behind: the call it made, if any, the result it
      stored, the error message (empty for none) and the spinner. */
  datatype Submitted = Submitted(request: Option<HashRequest>, result: Option<HashResult>,
                                 message: string, loading: bool)

  const TextMissing := "Введіть текст для хешування"
  const FileMissing := "Виберіть файл для хешування"
  const RequestFailed := "Помилка при виконанні запиту"

  /** `onSubmit(data)`, given the text field, the chosen file, if any, and how the call
      settles if one is made. */
  function OnSubmit(mode: Mode, textData: string, selected: Option<string>, call: HashCall): (o: Submitted)
    ensures !o.loading
    ensures o.request.Some? <==> (mode.TextMode? && textData != "") || (mode.FileMode? && selected.Some?)
    ensures o.request.Some? ==>
              o.request.value == (if mode.TextMode? then HashText(textData) else HashFile(selected.value))
    ensures o.request.None? ==>
              o.result.None? && o.message == (if mode.TextMode? then TextMissing else FileMissing)
    ensures o.request.Some? && call.Hashed? ==> o.result == Some(call.result) && o.message == ""
    ensures o.request.Some? && call.HashThrew? ==>
              o.result.None? && o.message != "" && (call.message != "" ==> o.message == call.message)
  {
    var request :=
      if mode.TextMode? then (if textData != "" then Some(HashText(textData)) else None)
      else if selected.Some? then Some(HashFile(selected.value)) else None;
    match request
    case None => Submitted(None, None, if mode.TextMode? then TextMissing else FileMissing, false)
    case Some(_) =>
      match call
      case Hashed(res) => Submitted(request, Some(res), "", false)
      case HashThrew(m) => Submitted(request, None, if m != "" then m else RequestFailed, false)
  }

  /** Each mode checks only its own input: the chosen file does not matter in text mode,
      nor the text in file mode. */
  lemma ModeChecksOwnInput(textData: string, otherText: string, selected: Option<string>,
                           otherFile: Option<string>, call: HashCall)
    ensures OnSubmit(TextMode, textData, selected, call) == OnSubmit(TextMode, textData, otherFile, call)
    ensures OnSubmit(FileMode, textData, selected, call) == OnSubmit(FileMode, otherText, selected, call)
  {
  }

  /** A thrown error shows the page's fallback text exactly when it has no message of its
      own, or that very text. */
  lemma FallbackOnlyWithoutMessage(mode: Mode, textData: string, selected: Option<string>, message: string)
    requires OnSubmit(mode, textData, selected, HashThrew(message)).request.Some?
    ensures OnSubmit(mode, textData, selected, HashThrew(message)).message == RequestFailed
            <==> message == "" || message == RequestFailed
  {
  }

  const DefaultMd5Name := "md5_result.txt"
  const Md5Suffix := "_md5.txt"

  /** The suggested name of `handleDownload`; `selected` is the chosen file's name, if a
      file was chosen. */
  function Md5Name(mode: Mode, selected: Option<string>): (r: string)
    ensures mode.TextMode? || selected.None? ==> r == DefaultMd5Name
    ensures mode.FileMode? && selected.Some? ==>
              r == FileNames.Stem(selected.value) + Md5Suffix
  {
    if mode.FileMode? && selected.Some? then FileNames.Stem(selected.value) + Md5Suffix
    else DefaultMd5Name
  }

  /** In file mode the report of `stem.ext` is named `stem_md5.txt`: only the last
      extension goes, any earlier dots stay. */
  lemma Md5NameReplacesExtension(stem: string, ext: string)
    requires '.' !in ext
    ensures Md5Name(FileMode, Some(stem + "." + ext)) == stem + Md5Suffix
  {
    FileNames.SplitAppended(stem, ext);
  }

  /** A name without a dot keeps all of itself. */
  lemma Md5NameWithoutDot(name: string)
    requires '.' !in name
    ensures Md5Name(FileMode, Some(name)) == name + Md5Suffix
  {
    FileNames.StemWithoutDot(name);
  }

  /** A name whose only dot leads has an empty stem: `.hidden` gives `_md5.txt`. */
  lemma HiddenFileName(name: string)
    requires name == ".hidden"
    ensures Md5Name(FileMode, Some(name)) == Md5Suffix
  {
    assert name == "" + "." + "hidden";
    Md5NameReplacesExtension("", "hidden");
  }

  /** Every name the page suggests is a `.txt` name. */
  lemma Md5NameIsTxt(mode: Mode, selected: Option<string>)
    ensures EndsWith(Md5Name(mode, selected), ".txt")
  {
    var r := Md5Name(mode, selected);
    if mode.FileMode? && selected.Some? {
      assert r[|r| - 4..] == Md5Suffix[4..];
    }
  }

  const HexLabel := "MD5 Хеш: "
  const SizeLabel := "Розмір (байти): "

  /** The report: the hash on one line and the size on the next, each line ended by a
      newline. `size` is the byte count as the `uk-UA` locale formats it. */
  function Md5Report(hex: string, size: string): string {
    HexLabel + hex + "\n" + SizeLabel + size + "\n"
  }

  /** Read line by line, the report gives back the hash and the formatted size, and ends
      with an empty line. */
  lemma {:induction false} ReportLines(hex: string, size: string)
    requires '\n' !in hex && '\n' !in size
    ensures Split(Md5Report(hex, size), '\n') == [HexLabel + hex, SizeLabel + size, ""]
    ensures Split(Md5Report(hex, size), '\n')[0][|HexLabel|..] == hex
  {
    var l1 := HexLabel + hex;
    var l2 := SizeLabel + size;
    assert '\n' !in l1 && '\n' !in l2;
    assert Md5Report(hex, size) == l1 + "\n" + (l2 + "\n" + "");
    SplitAtSeparator(l2, "", '\n');
    SplitAtSeparator(l1, l2 + "\n" + "", '\n');
    assert Split("", '\n') == [""];
  }

  /** `handleDownload`, given how the locale formats a size: nothing without a result,
      otherwise the report saved through the page's `saveFile`. */
  function HandleDownload(mode: Mode, selected: Option<string>, result: Option<HashResult>,
                          formatSize: int -> string, browser: Saving.Browser): (r: Option<Saving.Run>)
    ensures r.Some? <==> result.Some?
    ensures r.Some? ==> |r.value.events| >= 1
    ensures r.Some? && browser.NoPicker? ==>
              && |r.value.events| == 3
              && r.value.events[0] == Saving.CreateObjectUrl(ExecuteRequest.TextValue(
                   Md5Report(result.value.hex, formatSize(result.value.length))))
              && r.value.events[1] == Saving.AnchorClick(Md5Name(mode, selected))
    ensures r.Some? && browser.HasPicker? ==>
              r.value.events[0] == Saving.ShowPicker(
                Saving.PageOptions(Md5Name(mode, selected)))
  {
    match result
    case None => None
    case Some(res) =>
      Some(Saving.PageSaveFile(Md5Report(res.hex, formatSize(res.length)), Md5Name(mode, selected), browser))
  }
}

=== FILE: lab5.dfy ===
/** The digital-signature page `src/pages/lab5.jsx`: the checks `onSubmit` makes before it
    calls the signature API and how it turns the reply or the thrown error into the
    message shown, the name under which `handleDownload` saves a signature, and the text
    a loaded signature file puts in the form.

    The API call itself (`src/api/cryptoDSA.js`) is a parameter: what it returned or the
    message of what it threw. Its wrappers rethrow through `handleError`, so a thrown
    message is an `ApiError` message. */
module Lab5Page {
  import opened Wrappers
  import Text
  import FileNames
  import ExecuteRequest
  import Saving

  /** `mainTab`. */
  datatype Tab = Generate | Sign | Verify

  /** `signMode` and `verifyMode`; both only ever hold "text" or "file". */
  datatype Mode = TextMode | FileMode

  /** The form fields `onSubmit` reads; an unset field is the empty string. */
  datatype Form = Form(keyPrefix: string, inputText: string, signatureHex: string)

  /** The API call the page makes; files are named by the chosen file's name. */
  datatype Request =
    | GenerateKeys(prefix: string)
    | SignText(text: string, key: string)
    | SignFile(file: string, key: string)
    | VerifyText(text: string, signature: string, key: string)
    | VerifyFile(file: string, signature: string, key: string)

  /** The JSON object a call resolves to, as far as the page reads it. */
  datatype Reply = Reply(success: bool, signatureHex: string, message: string, status: string)

  /** How the awaited call settled: with a reply (`None` for a falsy one) or by throwing
      an error with this message. */
  datatype Call = Returned(reply: Option<Reply>) | Threw(message: string)

  /** The page state `onSubmit` leaves behind: the call it made, if any, the message and
      its error flag, the signature it wrote into the form, if any, and the spinner. */
  datatype Outcome = Outcome(request: Option<Request>, message: string, isError: bool,
                             signature: Option<string>, loading: bool)

  const PrivateKeyMissing := "Завантажте ПРИВАТНИЙ ключ (.pem)"
  const SignFileMissing := "Виберіть файл для підпису"
  const PublicKeyMissing := "Завантажте ПУБЛІЧНИЙ ключ (.pem)"
  const VerifyTextMissing := "Введіть текст для перевірки"
  const OriginalFileMissing := "Виберіть оригінальний файл"
  const KeysGenerated := "Ключі успішно згенеровані та завантажені."
  const SignatureCreated := "Підпис створено."
  const ExecutionFailed := "Помилка виконання"
  const SuccessStatus := "success"

  /** The checks `onSubmit` makes, in order, before it calls the API: the request it
      sends, or the message of the error it throws first. */
  function Plan(tab: Tab, signMode: Mode, verifyMode: Mode, form: Form,
                keyFile: Option<string>, dataFile: Option<string>): (r: Result<Request, string>)
    ensures r.Success? <==>
              || tab.Generate?
              || (tab.Sign? && keyFile.Some? && (signMode.TextMode? || dataFile.Some?))
              || (tab.Verify? && keyFile.Some? &&
                  (if verifyMode.TextMode? then form.inputText != "" else dataFile.Some?))
    ensures tab.Sign? && keyFile.None? ==> r == Failure(PrivateKeyMissing)
    ensures tab.Verify? && keyFile.None? ==> r == Failure(PublicKeyMissing)
    ensures r.Success? && !tab.Generate? ==> RequestKey(r.value) == keyFile
  {
    match tab
    case Generate => Success(GenerateKeys(form.keyPrefix))
    case Sign =>
      if keyFile.None? then Failure(PrivateKeyMissing)
      else if signMode.TextMode? then Success(SignText(form.inputText, keyFile.value))
      else if dataFile.None? then Failure(SignFileMissing)
      else Success(SignFile(dataFile.value, keyFile.value))
    case Verify =>
      if keyFile.None? then Failure(PublicKeyMissing)
      else if verifyMode.TextMode? then
        if form.inputText == "" then Failure(VerifyTextMissing)
        else Success(VerifyText(form.inputText, form.signatureHex, keyFile.value))
      else if dataFile.None? then Failure(OriginalFileMissing)
      else Success(VerifyFile(dataFile.value, form.signatureHex, keyFile.value))
  }

  /** The key file a request carries; key generation carries none. */
  function RequestKey(q: Request): Option<string> {
    match q
    case GenerateKeys(_) => None
    case SignText(_, k) => Some(k)
    case SignFile(_, k) => Some(k)
    case VerifyText(_, _, k) => Some(k)
    case VerifyFile(_, _, k) => Some(k)
  }

  /** The `catch` block: the error flag, and the error's message or the fallback. */
  function Caught(request: Option<Request>, message: string): (o: Outcome)
    ensures o.isError && o.message != "" && !o.loading && o.signature.None?
    ensures message != "" ==> o.message == message
  {
    Outcome(request, if message != "" then message else ExecutionFailed, true, None, false)
  }

  /** `onSubmit(data)`, given how the API call settles if one is made. */
  function OnSubmit(tab: Tab, signMode: Mode, verifyMode: Mode, form: Form,
                    keyFile: Option<string>, dataFile: Option<string>, call: Call): (o: Outcome)
    ensures !o.loading
    ensures o.request.Some? <==> Plan(tab, signMode, verifyMode, form, keyFile, dataFile).Success?
    ensures o.request.None? ==>
              o.isError && o.message == Plan(tab, signMode, verifyMode, form, keyFile, dataFile).error
    ensures o.request.Some? && call.Threw? ==> o.isError && o.message != ""
    ensures o.signature.Some? ==> tab.Sign? && call.Returned? && call.reply.Some?
                                  && o.signature == Some(call.reply.value.signatureHex)
  {
    match Plan(tab, signMode, verifyMode, form, keyFile, dataFile)
    case Failure(m) => Caught(None, m)
    case Success(q) =>
      match call
      case Threw(m) => Caught(Some(q), m)
      case Returned(None) => Outcome(Some(q), "", false, None, false)
      case Returned(Some(res)) =>
        match tab
        case Generate =>
          Outcome(Some(q), if res.success then KeysGenerated else "", false, None, false)
        case Sign => Outcome(Some(q), SignatureCreated, false, Some(res.signatureHex), false)
        case Verify => Outcome(Some(q), res.message, res.status != SuccessStatus, None, false)
  }

  // ---------------------------------------------------------------------------
  // Properties of onSubmit
  // ---------------------------------------------------------------------------

  /** Signing reports a missing key before a missing data file, and no call is made. */
  lemma SignKeyCheckedFirst(signMode: Mode, verifyMode: Mode, form: Form, dataFile: Option<string>, call: Call)
    ensures var o := OnSubmit(Sign, signMode, verifyMode, form, None, dataFile, call);
            o.request.None? && o.isError && o.message == PrivateKeyMissing
  {
  }

  /** With a key, signing in file mode still needs a data file; signing text needs no
      text at all. */
  lemma SignDataCheck(signMode: Mode, verifyMode: Mode, form: Form, key: string, dataFile: Option<string>, call: Call)
    ensures var o := OnSubmit(Sign, signMode, verifyMode, form, Some(key), dataFile, call);
            && (signMode.FileMode? && dataFile.None? ==> o.request.None? && o.message == SignFileMissing)
            && (signMode.TextMode? ==> o.request == Some(SignText(form.inputText, key)))
  {
  }

  /** Verifying checks the key first, then the text in text mode or the data file in
      file mode; the other input is never looked at. */
  lemma VerifyCheckOrder(signMode: Mode, verifyMode: Mode, form: Form, keyFile: Option<string>,
                         dataFile: Option<string>, call: Call)
    ensures var o := OnSubmit(Verify, signMode, verifyMode, form, keyFile, dataFile, call);
            && (keyFile.None? ==> o.request.None? && o.message == PublicKeyMissing)
            && (keyFile.Some? && verifyMode.TextMode? ==>
                  (o.request.None? <==> form.inputText == "")
                  && (o.request.None? ==> o.message == VerifyTextMissing))
            && (keyFile.Some? && verifyMode.FileMode? ==>
                  (o.request.None? <==> dataFile.None?)
                  && (o.request.None? ==> o.message == OriginalFileMissing))
  {
  }

  /** A verification reply is shown as it came, and it is an error exactly when its
      status is not "success". */
  lemma VerifyReplyMapping(verifyMode: Mode, signMode: Mode, form: Form, key: string, dataFile: Option<string>, res: Reply)
    requires Plan(Verify, signMode, verifyMode, form, Some(key), dataFile).Success?
    ensures var o := OnSubmit(Verify, signMode, verifyMode, form, Some(key), dataFile, Returned(Some(res)));
            o.message == res.message && (o.isError <==> res.status != SuccessStatus)
  {
  }

  /** A created signature is written into the form and never flagged as an error. */
  lemma SignReplyMapping(signMode: Mode, verifyMode: Mode, form: Form, key: string, dataFile: Option<string>, res: Reply)
    requires Plan(Sign, signMode, verifyMode, form, Some(key), dataFile).Success?
    ensures var o := OnSubmit(Sign, signMode, verifyMode, form, Some(key), dataFile, Returned(Some(res)));
            o.signature == Some(res.signatureHex) && o.message == SignatureCreated && !o.isError
  {
  }

  /** An error the API wrappers throw always carries a message, so the page shows the
      `ApiError` message itself rather than its fallback. */
  lemma ApiErrorShown(tab: Tab, signMode: Mode, verifyMode: Mode, form: Form,
                      keyFile: Option<string>, dataFile: Option<string>, e: ExecuteRequest.RawError)
    requires Plan(tab, signMode, verifyMode, form, keyFile, dataFile).Success?
    ensures var m := ExecuteRequest.HandleError(e).message;
            var o := OnSubmit(tab, signMode, verifyMode, form, keyFile, dataFile, Threw(m));
            o.isError && o.message == m
  {
  }

  /** Only an error thrown without a message shows the fallback text. */
  lemma FallbackOnlyForEmptyMessage(tab: Tab, signMode: Mode, verifyMode: Mode, form: Form,
                                    keyFile: Option<string>, dataFile: Option<string>, m: string)
    requires Plan(tab, signMode, verifyMode, form, keyFile, dataFile).Success?
    ensures var o := OnSubmit(tab, signMode, verifyMode, form, keyFile, dataFile, Threw(m));
            o.message == (if m == "" then ExecutionFailed else m)
  {
  }

  // ---------------------------------------------------------------------------
  // Saving and loading a signature
  // ---------------------------------------------------------------------------

  const DefaultSignatureName := "signature.txt"

  /** The suggested name of `handleDownload`: derived from the data file only when
      signing a file with both files chosen. */
  function SignatureName(signMode: Mode, dataFile: Option<string>, keyFile: Option<string>): (r: string)
    ensures signMode.TextMode? || dataFile.None? || keyFile.None? ==> r == DefaultSignatureName
    ensures signMode.FileMode? && dataFile.Some? && keyFile.Some? ==>
              r == FileNames.Stem(dataFile.value) + "_md5.txt"
  {
    if signMode.FileMode? && dataFile.Some? && keyFile.Some? then
      FileNames.Stem(dataFile.value) + "_md5.txt"
    else DefaultSignatureName
  }

  /** Signing `stem.ext` saves the signature as `stem_md5.txt`, whichever key is used. */
  lemma SignatureNameOfFile(stem: string, ext: string, key: string)
    requires '.' !in ext
    ensures SignatureName(FileMode, Some(stem + "." + ext), Some(key)) == stem + "_md5.txt"
  {
    FileNames.SplitAppended(stem, ext);
  }

  /** `handleDownload`: the signature field saved through the page's `saveFile`. */
  function HandleDownload(signMode: Mode, dataFile: Option<string>, keyFile: Option<string>,
                          outputSignature: string, browser: Saving.Browser): (r: Saving.Run)
    ensures browser.NoPicker? ==>
              r.events == Saving.AnchorDownload(ExecuteRequest.TextValue(outputSignature),
                                                SignatureName(signMode, dataFile, keyFile))
    ensures browser.HasPicker? ==> r.outcome != Saving.Downloaded
  {
    Saving.PageSaveNeverFallsBack(outputSignature, SignatureName(signMode, dataFile, keyFile), browser);
    Saving.PageSaveFile(outputSignature, SignatureName(signMode, dataFile, keyFile), browser)
  }

  /** What a loaded signature file puts in the `signatureHex` field: its text without
      surrounding whitespace. It is the piece of the file left once only whitespace is
      removed at either end, it neither starts nor ends with whitespace, and trimming
      again leaves it alone. */
  function LoadedSignature(content: string): (r: string)
    ensures Text.Trim(r) == r
    ensures r == [] || (!Text.IsJsWhitespace(r[0]) && !Text.IsJsWhitespace(r[|r| - 1]))
    ensures exists i, j ::
              && 0 <= i <= j <= |content| && r == content[i..j]
              && (forall k :: 0 <= k < i ==> Text.IsJsWhitespace(content[k]))
              && (forall k :: j <= k < |content| ==> Text.IsJsWhitespace(content[k]))
  {
    Text.TrimIsCore(content);
    Text.TrimIdempotent(content);
    Text.Trim(content)
  }
}

=== FILE: numerals.dfy ===
/** Decimal rendering of integers, as JavaScript's `String(n)` and template literals
    produce it for integers below 10^21, and the matching parser. */
module Numerals {
  import opened Wrappers

  predicate IsDigit(c: char) {
    '0' <= c <= '9'
  }

  function DigitChar(d: nat): (c: char)
    requires d < 10
    ensures IsDigit(c)
  {
    ('0' as int + d) as char
  }

  function DigitValue(c: char): (d: nat)
    requires IsDigit(c)
    ensures d < 10
  {
    c as int - '0' as int
  }

  /** The shortest decimal numeral of `n`: only digits, no leading zero. */
  function NatToString(n: nat): (s: string)
    ensures |s| >= 1
    ensures forall i :: 0 <= i < |s| ==> IsDigit(s[i])
    ensures |s| > 1 ==> s[0] != '0'
  {
    if n < 10 then [DigitChar(n)] else NatToString(n / 10) + [DigitChar(n % 10)]
  }

  /** The three numerals the generator page writes by default. */
  lemma NatToStringLiterals()
    ensures NatToString(3) == "3"
    ensures NatToString(3125) == "3125"
    ensures NatToString(8191) == "8191"
  {
    assert NatToString(31) == NatToString(3) + ['1'];
    assert NatToString(312) == NatToString(31) + ['2'];
    assert NatToString(3125) == NatToString(312) + ['5'];
    assert NatToString(81) == NatToString(8) + ['1'];
    assert NatToString(819) == NatToString(81) + ['9'];
    assert NatToString(8191) == NatToString(819) + ['1'];
  }

  /** The value of a string of digits, most significant first. */
  function DigitsValue(s: string): nat
    requires forall i :: 0 <= i < |s| ==> IsDigit(s[i])
  {
    if |s| == 0 then 0 else DigitsValue(s[..|s| - 1]) * 10 + DigitValue(s[|s| - 1])
  }

  /** A non-empty run of digits, read as a number; anything else does not parse. */
  function ParseNat(s: string): (r: Option<nat>)
    ensures r.Some? <==> |s| >= 1 && forall i :: 0 <= i < |s| ==> IsDigit(s[i])
  {
    if |s| >= 1 && forall i :: 0 <= i < |s| ==> IsDigit(s[i]) then Some(DigitsValue(s)) else None
  }

  /** `${i}` for an integer `i`. */
  function IntToString(i: int): (s: string)
    ensures |s| >= 1 && IsDigit(s[|s| - 1])
    ensures forall k :: 0 <= k < |s| ==> IsDigit(s[k]) || (k == 0 && s[k] == '-')
  {
    if i < 0 then "-" + NatToString(-i) else NatToString(i)
  }

  /** An optionally negated numeral. */
  function ParseInt(s: string): Option<int> {
    if |s| >= 1 && s[0] == '-' then
      match ParseNat(s[1..])
      case Some(n) => var v: int := n; Some(-v)
      case None => None
    else
      match ParseNat(s)
      case Some(n) => Some(n)
      case None => None
  }

  lemma {:induction false} ParseNatToString(n: nat)
    ensures ParseNat(NatToString(n)) == Some(n)
  {
    var s := NatToString(n);
    if n < 10 {
      assert s[..|s| - 1] == [];
      assert DigitValue(DigitChar(n)) == n;
      assert DigitsValue(s) == DigitsValue(s[..|s| - 1]) * 10 + DigitValue(s[|s| - 1]);
    } else {
      ParseNatToString(n / 10);
      assert s[..|s| - 1] == NatToString(n / 10);
      assert DigitValue(s[|s| - 1]) == n % 10;
      assert DigitsValue(s) == (n / 10) * 10 + n % 10;
    }
  }

  /** Reading back a rendered integer gives the integer: the rendering loses nothing. */
  lemma ParseIntToString(i: int)
    ensures ParseInt(IntToString(i)) == Some(i)
  {
    if i < 0 {
      ParseNatToString(-i);
      assert IntToString(i)[1..] == NatToString(-i);
    } else {
      ParseNatToString(i);
    }
  }

  /** Different integers render differently. */
  lemma IntToStringInjective(i: int, j: int)
    requires IntToString(i) == IntToString(j)
    ensures i == j
  {
    ParseIntToString(i);
    ParseIntToString(j);
  }
}

=== FILE: picker_options.dfy ===
/** `getFilePickerOptions` of `src/utils/triggerSaveAs.js`: the options handed to
    `showSaveFilePicker` for a suggested file name. */
module PickerOptions {
  import opened Wrappers
  import Text

  /** `x >>> 0`: the value reduced to an unsigned 32-bit integer. */
  function Uint32(x: int): (r: nat)
    ensures r < 0x1_0000_0000
    ensures 0 <= x < 0x1_0000_0000 ==> r == x
    ensures -0x1_0000_0000 <= x < 0 ==> r == x + 0x1_0000_0000
  {
    x % 0x1_0000_0000
  }

  /** `s.slice(start)` for a non-negative start: clamped to the length. */
  function SliceFrom(s: string, start: nat): (r: string)
    ensures start >= |s| ==> r == ""
    ensures start < |s| ==> r == s[start..]
  {
    if start >= |s| then "" else s[start..]
  }

  /** The lower-cased extension: `filename.slice(((filename.lastIndexOf(".") - 1) >>> 0) + 2)`.
      With no dot, `-2 >>> 0` is 2^32 - 2, and with a leading dot `-1 >>> 0` is 2^32 - 1;
      either start lies beyond any real file name, so the extension is empty. */
  function Extension(filename: string): string {
    ExtensionFrom(filename, Text.LastIndexOf(filename, '.'))
  }

  /** The lower-cased slice from `((dot - 1) >>> 0) + 2`. */
  function ExtensionFrom(filename: string, dot: int): string {
    Text.ToLowerAscii(SliceFrom(filename, Uint32(dot - 1) + 2))
  }

  /** One entry of `types`: a description and an `accept` map with a single MIME type. */
  datatype FileType = FileType(description: string, mime: string, extensions: seq<string>)

  const TextFile := FileType("Text File", "text/plain", [".txt"])
  const PngImage := FileType("PNG Image", "image/png", [".png"])
  const JpegImage := FileType("JPEG Image", "image/jpeg", [".jpg", ".jpeg"])
  const WebpImage := FileType("WebP Image", "image/webp", [".webp"])
  const Rc5File := FileType("RC5 Encrypted File", "application/octet-stream", [".rc5"])
  const RsaFile := FileType("RSA Encrypted File", "application/octet-stream", [".enc"])
  const ZipArchive := FileType("ZIP Archive", "application/zip", [".zip"])
  const PemKey := FileType("PEM Key", "application/x-pem-file", [".pem"])
  const PdfFile := FileType("PDF File", "file/pdf", [".pdf"])

  /** The own properties of `typeMap`. */
  const TypeMap: map<string, FileType> := map[
    "txt" := TextFile, "png" := PngImage, "jpg" := JpegImage, "jpeg" := JpegImage,
    "webp" := WebpImage, "rc5" := Rc5File, "enc" := RsaFile, "zip" := ZipArchive,
    "pem" := PemKey, "pdf" := PdfFile]

  /** `{ suggestedName, types? }`. */
  datatype Options = Options(suggestedName: string, types: Option<seq<FileType>>)

  /** Every type accepts the extension it is filed under. */
  lemma TypeMapAcceptsKey(k: string)
    requires k in TypeMap
    ensures ("." + k) in TypeMap[k].extensions
  {
    if k == "jpeg" {
      assert TypeMap[k].extensions[1] == "." + k;
    } else {
      assert TypeMap[k].extensions[0] == "." + k by {
        if k == "txt" {
          assert TypeMap[k] == TextFile;
        } else if k == "png" {
          assert TypeMap[k] == PngImage;
        } else if k == "jpg" {
          assert TypeMap[k] == JpegImage;
        } else if k == "webp" {
          assert TypeMap[k] == WebpImage;
        } else if k == "rc5" {
          assert TypeMap[k] == Rc5File;
        } else if k == "enc" {
          assert TypeMap[k] == RsaFile;
        } else if k == "zip" {
          assert TypeMap[k] == ZipArchive;
        } else if k == "pem" {
          assert TypeMap[k] == PemKey;
        } else {
          assert TypeMap[k] == PdfFile;
        }
      }
    }
  }

  /** `getFilePickerOptions(filename)`, looking only at the table's own keys.
      `types` is present exactly when the extension is a key, and then holds the one
      type that accepts that extension. */
  function FilePickerOptions(filename: string): (r: Options)
    ensures r.suggestedName == filename
    ensures r.types.Some? <==> Extension(filename) in TypeMap
    ensures r.types.Some? ==>
              |r.types.value| == 1 && ("." + Extension(filename)) in r.types.value[0].extensions
    ensures r.types.Some? ==> r.types.value == [TypeMap[Extension(filename)]]
  {
    var ext := Extension(filename);
    if ext in TypeMap then
      TypeMapAcceptsKey(ext);
      Options(filename, Some([TypeMap[ext]]))
    else Options(filename, None)
  }

  /** A name `stem.ext` gets the table's entry for the lower-cased `ext`, whatever its case. */
  lemma AppendedType(stem: string, ext: string, key: string)
    requires stem != "" && '.' !in ext && Text.ToLowerAscii(ext) == key && key in TypeMap
    requires |stem| + 1 + |ext| < 0x1_0000_0000
    ensures FilePickerOptions(stem + "." + ext).types == Some([TypeMap[key]])
  {
    ExtensionOfAppended(stem, ext);
  }

  /** The table holds the JPEG type under both of its extensions, and RC5 under `rc5`. */
  lemma JpegAndRc5Entries()
    ensures "jpg" in TypeMap && TypeMap["jpg"] == JpegImage
    ensures "jpeg" in TypeMap && TypeMap["jpeg"] == JpegImage
    ensures "rc5" in TypeMap && TypeMap["rc5"] == Rc5File
  {
  }

  /** `.jpg` and `.jpeg` are offered equal JPEG entries, each accepting both extensions. */
  lemma JpegShared(filename: string)
    requires Extension(filename) == "jpg" || Extension(filename) == "jpeg"
    ensures FilePickerOptions(filename).types == Some([JpegImage])
    ensures JpegImage.extensions == [".jpg", ".jpeg"]
  {
    JpegAndRc5Entries();
  }

  /** An encrypted file `x.rc5` is offered as an RC5 encrypted file. */
  lemma Rc5Example(filename: string)
    requires filename == "x.rc5"
    ensures FilePickerOptions(filename).types == Some([Rc5File])
    ensures JsFilePickerOptions(filename).types == Some([Own(Rc5File)])
  {
    assert filename == "x" + "." + "rc5";
    JpegAndRc5Entries();
    LowerLiteral("rc5", "rc5");
    AppendedType("x", "rc5", "rc5");
  }

  /** Lower-casing a short literal, character by character. */
  lemma LowerLiteral(s: string, lower: string)
    requires |s| == |lower| && forall i :: 0 <= i < |s| ==> Text.LowerChar(s[i]) == lower[i]
    ensures Text.ToLowerAscii(s) == lower
  {
  }

  /** For a dot index `d`, the extension is the lower-cased text after the dot, or
      nothing when the dot is missing or leads. */
  lemma ExtensionFromDot(filename: string, d: int)
    requires |filename| < 0x1_0000_0000 && -1 <= d < |filename|
    ensures d >= 1 ==> ExtensionFrom(filename, d) == Text.ToLowerAscii(filename[d + 1..])
    ensures d < 1 ==> ExtensionFrom(filename, d) == ""
  {
    if d >= 1 {
      assert Uint32(d - 1) == d - 1;
    } else {
      assert Uint32(d - 1) == d - 1 + 0x1_0000_0000;
      assert |ExtensionFrom(filename, d)| == 0;
    }
  }

  /** The extension is the lower-cased text after the last dot, provided that dot is not
      the first character; a name without a dot, or whose only dot leads, has none. */
  lemma ExtensionAfterLastDot(filename: string)
    requires |filename| < 0x1_0000_0000
    ensures var d := Text.LastIndexOf(filename, '.');
            d >= 1 ==> Extension(filename) == Text.ToLowerAscii(filename[d + 1..])
    ensures Text.LastIndexOf(filename, '.') < 1 ==> Extension(filename) == ""
  {
    ExtensionFromDot(filename, Text.LastIndexOf(filename, '.'));
  }

  /** Appending `.ext` to a non-empty stem yields the lower-cased `ext` back, when `ext`
      itself has no dot. */
  lemma ExtensionOfAppended(stem: string, ext: string)
    requires stem != "" && '.' !in ext
    requires |stem| + 1 + |ext| < 0x1_0000_0000
    ensures Extension(stem + "." + ext) == Text.ToLowerAscii(ext)
  {
    var s := stem + "." + ext;
    var d := Text.LastIndexOf(s, '.');
    assert s[|stem|] == '.';
    forall j | |stem| < j < |s| ensures s[j] != '.' {
      assert s[j] == ext[j - |stem| - 1];
    }
    assert d == |stem|;
    ExtensionAfterLastDot(s);
    assert s[d + 1..] == ext;
  }

  /** The extension never contains a dot. */
  lemma ExtensionHasNoDot(filename: string)
    requires |filename| < 0x1_0000_0000
    ensures '.' !in Extension(filename)
  {
    var d := Text.LastIndexOf(filename, '.');
    var start := Uint32(d - 1) + 2;
    assert start > d by {
      if d >= 1 {
        assert Uint32(d - 1) == d - 1;
      }
    }
    var tail := SliceFrom(filename, start);
    forall k | 0 <= k < |tail| ensures tail[k] != '.' {
      assert tail[k] == filename[start + k];
    }
    var ext := Extension(filename);
    forall k | 0 <= k < |ext| ensures ext[k] != '.' {
      assert ext[k] == Text.LowerChar(tail[k]);
    }
  }

  // ---------------------------------------------------------------------------
  // As written: `typeMap[extension]` on an object literal
  // ---------------------------------------------------------------------------

  /** What `typeMap[extension]` yields: an own entry, or a member inherited from
      `Object.prototype`. Only `constructor` and `__proto__` are inherited names that
      are entirely lower-case, so only they survive the `toLowerCase()`; both are truthy. */
  datatype Lookup = Own(t: FileType) | Inherited(member: string)

  function JsTypeLookup(ext: string): (r: Option<Lookup>)
    ensures ext in TypeMap ==> r == Some(Own(TypeMap[ext]))
    ensures r.Some? && r.value.Inherited? ==> ext !in TypeMap
  {
    if ext in TypeMap then Some(Own(TypeMap[ext]))
    else if ext == "constructor" then Some(Inherited("Object"))
    else if ext == "__proto__" then Some(Inherited("Object.prototype"))
    else None
  }

  datatype JsOptions = JsOptions(suggestedName: string, types: Option<seq<Lookup>>)

  /** `getFilePickerOptions(filename)` as written. */
  function JsFilePickerOptions(filename: string): (r: JsOptions)
    ensures r.suggestedName == filename
    ensures r.types.Some? <==> JsTypeLookup(Extension(filename)).Some?
    ensures Extension(filename) in TypeMap ==> r.types == Some([Own(TypeMap[Extension(filename)])])
    ensures Extension(filename) == "constructor" ==> r.types == Some([Inherited("Object")])
    ensures Extension(filename) == "__proto__" ==> r.types == Some([Inherited("Object.prototype")])
  {
    match JsTypeLookup(Extension(filename))
    case Some(t) => JsOptions(filename, Some([t]))
    case None => JsOptions(filename, None)
  }

  /** The two agree on every name whose extension is not an inherited member name. */
  lemma JsOptionsAgree(filename: string)
    requires Extension(filename) != "constructor" && Extension(filename) != "__proto__"
    ensures var js := JsFilePickerOptions(filename);
            var r := FilePickerOptions(filename);
            js.types.Some? <==> r.types.Some?
    ensures var js := JsFilePickerOptions(filename);
            var r := FilePickerOptions(filename);
            r.types.Some? ==> js.types.value == [Own(r.types.value[0])]
  {
  }

  /** Any name whose extension lower-cases to `constructor` gets a `types` entry that is
      no file type at all, the `Object` constructor the table inherits. */
  lemma InheritedConstructor(stem: string, ext: string)
    requires stem != "" && '.' !in ext && Text.ToLowerAscii(ext) == "constructor"
    requires |stem| + 1 + |ext| < 0x1_0000_0000
    ensures JsFilePickerOptions(stem + "." + ext).types == Some([Inherited("Object")])
    ensures FilePickerOptions(stem + "." + ext).types == None
  {
    ExtensionOfAppended(stem, ext);
  }

  /** The concrete name `x.constructor`. */
  lemma InheritedTypeCounterexample(filename: string)
    requires filename == "x.constructor"
    ensures JsFilePickerOptions(filename).types == Some([Inherited("Object")])
    ensures FilePickerOptions(filename).types == None
  {
    var ext := filename[2..];
    assert filename == filename[..1] + "." + ext;
    assert ext == "constructor";
    forall k | 0 <= k < |ext| ensures Text.LowerChar(ext[k]) == ext[k] {
    }
    assert Text.ToLowerAscii(ext) == ext;
    InheritedConstructor(filename[..1], ext);
  }
}

=== FILE: saving.dfy ===
/** How the client puts a file on disk: `triggerSaveAs` (`src/utils/triggerSaveAs.js`),
    `triggerFileDownload` (`src/utils/triggerFileDownload.js`) and the page-local
    `saveFile` of `src/pages/Lab2.jsx` and `src/pages/lab5.jsx`.

    The browser is a parameter: whether `showSaveFilePicker` exists and how each of the
    picker's four awaited steps settles. A run is the trace of browser calls it makes
    plus how it ended. */
module Saving {
  import opened Wrappers
  import Uri
  import ExecuteRequest
  import ContentDisposition
  import PickerOptions

  /** How one awaited picker step settles; a rejection carries the error's `name`. */
  datatype Step = Resolves | Rejects(name: string)

  /** `showSaveFilePicker`, `createWritable`, `write` and `close`, in that order. */
  datatype Picker = Picker(show: Step, create: Step, write: Step, close: Step)

  datatype Browser = NoPicker | HasPicker(picker: Picker)

  /** The browser calls a save makes, in order. */
  datatype Event =
    | ShowPicker(options: PickerOptions.Options)
    | CreateWritable
    | Write(data: ExecuteRequest.Body)
    | CloseWritable
    | LogError
    | CreateObjectUrl(data: ExecuteRequest.Body)
    | AnchorClick(download: string)
    | RevokeObjectUrl

  datatype Outcome =
    | Written      // every picker step resolved
    | Cancelled    // the user dismissed the picker: an AbortError
    | Downloaded   // an anchor download was started
    | Failed       // another picker error, logged and not retried

  datatype Run = Run(events: seq<Event>, outcome: Outcome)

  const AbortError := "AbortError"

  /** The anchor download every variant falls back to: create an object URL for the data,
      click an anchor whose `download` is the name, and revoke the URL. */
  function AnchorDownload(data: ExecuteRequest.Body, name: string): (es: seq<Event>)
    ensures |es| == 3 && es[1] == AnchorClick(name) && es[2] == RevokeObjectUrl
  {
    [CreateObjectUrl(data), AnchorClick(name), RevokeObjectUrl]
  }

  /** The picker steps up to and including the first rejection, with the name of the
      error that rejected, if any. A step that is not reached makes no call. */
  function PickerSteps(options: PickerOptions.Options, data: ExecuteRequest.Body, p: Picker)
    : (r: (seq<Event>, Option<string>))
    ensures |r.0| >= 1 && r.0[0] == ShowPicker(options)
    ensures r.1.None? <==> p.show.Resolves? && p.create.Resolves? && p.write.Resolves? && p.close.Resolves?
    ensures CloseWritable in r.0 <==> p.show.Resolves? && p.create.Resolves? && p.write.Resolves?
    ensures Write(data) in r.0 <==> p.show.Resolves? && p.create.Resolves?
    ensures p.show.Rejects? ==> r.1 == Some(p.show.name)
    ensures p.show.Resolves? && p.create.Rejects? ==> r.1 == Some(p.create.name)
    ensures p.show.Resolves? && p.create.Resolves? && p.write.Rejects? ==> r.1 == Some(p.write.name)
    ensures p.show.Resolves? && p.create.Resolves? && p.write.Resolves? && p.close.Rejects? ==>
              r.1 == Some(p.close.name)
  {
    if p.show.Rejects? then ([ShowPicker(options)], Some(p.show.name))
    else if p.create.Rejects? then ([ShowPicker(options), CreateWritable], Some(p.create.name))
    else if p.write.Rejects? then ([ShowPicker(options), CreateWritable, Write(data)], Some(p.write.name))
    else
      var calls := [ShowPicker(options), CreateWritable, Write(data), CloseWritable];
      if p.close.Rejects? then (calls, Some(p.close.name)) else (calls, None)
  }

  /** The `content-disposition` response header, if present. */
  function DispositionHeader(response: ExecuteRequest.Response): Option<string> {
    if "content-disposition" in response.headers then Some(response.headers["content-disposition"]) else None
  }

  /** `triggerSaveAs(response)`: fails with the `URIError` of the name's percent-decoding
      before any browser call; otherwise tries the picker, returns on success or on an
      AbortError, and falls back to an anchor download after any other error. */
  function TriggerSaveAs(response: ExecuteRequest.Response, browser: Browser): (r: Result<Run, Uri.UriError>)
    ensures r.Failure? <==> ContentDisposition.SaveAsFilename(DispositionHeader(response)).Failure?
    ensures r.Success? && browser.NoPicker? ==>
              r.value == Run(AnchorDownload(response.data,
                                            ContentDisposition.SaveAsFilename(DispositionHeader(response)).value),
                             Downloaded)
    ensures r.Success? && browser.HasPicker? ==>
              |r.value.events| >= 1 && r.value.events[0] ==
                ShowPicker(PickerOptions.FilePickerOptions(ContentDisposition.SaveAsFilename(DispositionHeader(response)).value))
    ensures r.Success? ==> r.value.outcome != Failed
  {
    var filename :- ContentDisposition.SaveAsFilename(DispositionHeader(response));
    var blob := response.data;
    match browser
    case NoPicker => Success(Run(AnchorDownload(blob, filename), Downloaded))
    case HasPicker(p) =>
      var (calls, err) := PickerSteps(PickerOptions.FilePickerOptions(filename), blob, p);
      match err
      case None => Success(Run(calls, Written))
      case Some(name) =>
        if name == AbortError then Success(Run(calls, Cancelled))
        else Success(Run(calls + [LogError] + AnchorDownload(blob, filename), Downloaded))
  }

  /** `triggerFileDownload(response)`: always an anchor download of the data, under the
      name its own header pattern finds, and never the picker. */
  function TriggerFileDownload(response: ExecuteRequest.Response): (r: Run)
    ensures r.outcome == Downloaded
    ensures |r.events| == 3 && r.events[0] == CreateObjectUrl(response.data) && r.events[2] == RevokeObjectUrl
    ensures HasAnchor(r.events) && !UsesPicker(r.events)
    ensures forall k :: 0 <= k < |r.events| && r.events[k].AnchorClick? ==>
              k == 1 && r.events[k].download == ContentDisposition.FileDownloadFilename(DispositionHeader(response))
              && r.events[k].download != ""
  {
    Run(AnchorDownload(response.data, ContentDisposition.FileDownloadFilename(DispositionHeader(response))),
        Downloaded)
  }

  /** The one type the page-local `saveFile` offers, whatever the name. */
  const PageTextType := PickerOptions.FileType("Text Files", "text/plain", [".txt"])

  /** The options the page-local `saveFile` passes to the picker. */
  function PageOptions(name: string): PickerOptions.Options {
    PickerOptions.Options(name, Some([PageTextType]))
  }

  /** `saveFile(content, suggestedFileName)` of the Lab2 and lab5 pages: an anchor download
      without a picker; with one, a fixed text type, AbortError swallowed, any other error
      logged with no fallback. */
  function PageSaveFile(content: string, name: string, browser: Browser): (r: Run)
    ensures browser.NoPicker? ==> r == Run(AnchorDownload(ExecuteRequest.TextValue(content), name), Downloaded)
    ensures browser.HasPicker? ==>
              |r.events| >= 1 && r.events[0] == ShowPicker(PageOptions(name))
    ensures browser.HasPicker? ==>
              var err := PickerSteps(PageOptions(name), ExecuteRequest.TextValue(content), browser.picker).1;
              && (err.None? ==> r.outcome == Written && LogError !in r.events)
              && (err == Some(AbortError) ==> r.outcome == Cancelled && LogError !in r.events)
              && (err.Some? && err != Some(AbortError) ==>
                    r.outcome == Failed && LogError in r.events && !HasAnchor(r.events))
  {
    var data := ExecuteRequest.TextValue(content);
    match browser
    case NoPicker => Run(AnchorDownload(data, name), Downloaded)
    case HasPicker(p) =>
      var (calls, err) := PickerSteps(PageOptions(name), data, p);
      PickerStepsHaveNoAnchor(PageOptions(name), data, p);
      match err
      case None => Run(calls, Written)
      case Some(n) =>
        if n == AbortError then Run(calls, Cancelled) else Run(calls + [LogError], Failed)
  }

  // ---------------------------------------------------------------------------
  // Properties of the runs
  // ---------------------------------------------------------------------------

  predicate HasAnchor(es: seq<Event>) {
    exists k :: 0 <= k < |es| && es[k].AnchorClick?
  }

  predicate UsesPicker(es: seq<Event>) {
    exists k :: 0 <= k < |es| && es[k].ShowPicker?
  }

  /** The four outcomes of `triggerSaveAs` by case: no picker or another error gives an
      anchor download, and a picker success or an AbortError ends without one. */
  lemma SaveAsOutcomes(response: ExecuteRequest.Response, browser: Browser)
    requires TriggerSaveAs(response, browser).Success?
    ensures var run := TriggerSaveAs(response, browser).value;
            && (run.outcome == Downloaded <==> HasAnchor(run.events))
            && (browser.NoPicker? ==> run.outcome == Downloaded)
            && (run.outcome == Cancelled <==>
                  browser.HasPicker? && PickerSteps(PickerOptions.FilePickerOptions(
                    ContentDisposition.SaveAsFilename(DispositionHeader(response)).value),
                    response.data, browser.picker).1 == Some(AbortError))
            && (run.outcome == Written <==>
                  browser.HasPicker? && PickerSteps(PickerOptions.FilePickerOptions(
                    ContentDisposition.SaveAsFilename(DispositionHeader(response)).value),
                    response.data, browser.picker).1.None?)
  {
    var filename := ContentDisposition.SaveAsFilename(DispositionHeader(response)).value;
    var run := TriggerSaveAs(response, browser).value;
    match browser
    case NoPicker =>
      assert run.events[1].AnchorClick?;
    case HasPicker(p) =>
      var (calls, err) := PickerSteps(PickerOptions.FilePickerOptions(filename), response.data, p);
      PickerStepsHaveNoAnchor(PickerOptions.FilePickerOptions(filename), response.data, p);
      if err.Some? && err.value != AbortError {
        var es := calls + [LogError] + AnchorDownload(response.data, filename);
        assert es[|calls| + 2].AnchorClick?;
      }
  }

  lemma PickerStepsHaveNoAnchor(options: PickerOptions.Options, data: ExecuteRequest.Body, p: Picker)
    ensures forall k :: 0 <= k < |PickerSteps(options, data, p).0| ==>
              !PickerSteps(options, data, p).0[k].AnchorClick? && !PickerSteps(options, data, p).0[k].RevokeObjectUrl?
    ensures LogError !in PickerSteps(options, data, p).0
  {
  }

  /** Every anchor `triggerSaveAs` clicks downloads under the decoded header name. */
  lemma SaveAsAnchorName(response: ExecuteRequest.Response, browser: Browser, k: nat)
    requires TriggerSaveAs(response, browser).Success?
    requires k < |TriggerSaveAs(response, browser).value.events|
    requires TriggerSaveAs(response, browser).value.events[k].AnchorClick?
    ensures TriggerSaveAs(response, browser).value.events[k].download ==
              ContentDisposition.SaveAsFilename(DispositionHeader(response)).value
  {
    var filename := ContentDisposition.SaveAsFilename(DispositionHeader(response)).value;
    match browser
    case NoPicker =>
    case HasPicker(p) =>
      PickerStepsHaveNoAnchor(PickerOptions.FilePickerOptions(filename), response.data, p);
  }

  /** After a rejected `write` the writable is never closed. */
  lemma NoCloseAfterFailedWrite(response: ExecuteRequest.Response, p: Picker)
    requires p.write.Rejects?
    requires TriggerSaveAs(response, HasPicker(p)).Success?
    ensures CloseWritable !in TriggerSaveAs(response, HasPicker(p)).value.events
  {
    var filename := ContentDisposition.SaveAsFilename(DispositionHeader(response)).value;
    var (calls, err) := PickerSteps(PickerOptions.FilePickerOptions(filename), response.data, p);
    if err.Some? && err.value != AbortError {
      var es := calls + [LogError] + AnchorDownload(response.data, filename);
      forall k | 0 <= k < |es| ensures es[k] != CloseWritable {
        if k < |calls| {
          assert es[k] == calls[k];
        }
      }
    }
  }

  /** In any run, every object URL is revoked only after its anchor was clicked. */
  predicate RevokeAfterClick(es: seq<Event>) {
    forall k :: 0 <= k < |es| && es[k] == RevokeObjectUrl ==>
      exists j :: 0 <= j < k && es[j].AnchorClick?
  }

  lemma SaveAsRevokesAfterClick(response: ExecuteRequest.Response, browser: Browser)
    requires TriggerSaveAs(response, browser).Success?
    ensures RevokeAfterClick(TriggerSaveAs(response, browser).value.events)
  {
    var filename := ContentDisposition.SaveAsFilename(DispositionHeader(response)).value;
    var es := TriggerSaveAs(response, browser).value.events;
    match browser
    case NoPicker =>
      assert es[1].AnchorClick?;
    case HasPicker(p) =>
      var (calls, err) := PickerSteps(PickerOptions.FilePickerOptions(filename), response.data, p);
      PickerStepsHaveNoAnchor(PickerOptions.FilePickerOptions(filename), response.data, p);
      if err.Some? && err.value != AbortError {
        assert es == calls + [LogError] + AnchorDownload(response.data, filename);
        forall k | 0 <= k < |es| && es[k] == RevokeObjectUrl
          ensures exists j :: 0 <= j < k && es[j].AnchorClick?
        {
          if k >= |calls| {
            assert es[|calls| + 2].AnchorClick?;
          }
        }
      }
  }

  lemma FileDownloadRevokesAfterClick(response: ExecuteRequest.Response)
    ensures RevokeAfterClick(TriggerFileDownload(response).events)
  {
    var es := TriggerFileDownload(response).events;
    assert es[1].AnchorClick?;
  }

  /** The page-local `saveFile` never falls back: a run either uses the picker or an
      anchor, not both, and the only anchor download is the one without a picker. */
  lemma PageSaveNeverFallsBack(content: string, name: string, browser: Browser)
    ensures var run := PageSaveFile(content, name, browser);
            && (HasAnchor(run.events) <==> browser.NoPicker?)
            && (UsesPicker(run.events) <==> browser.HasPicker?)
            && (run.outcome == Downloaded <==> browser.NoPicker?)
  {
    var run := PageSaveFile(content, name, browser);
    var data := ExecuteRequest.TextValue(content);
    match browser
    case NoPicker =>
      assert run.events[1].AnchorClick?;
    case HasPicker(p) =>
      var options := PageOptions(name);
      var (calls, err) := PickerSteps(options, data, p);
      PickerStepsHaveNoAnchor(options, data, p);
      assert run.events[0].ShowPicker?;
      if err.Some? && err.value != AbortError {
        forall k | 0 <= k < |run.events| ensures !run.events[k].AnchorClick? {
          if k < |calls| {
            assert run.events[k] == calls[k];
          }
        }
      }
  }

  /** Where `triggerSaveAs` and the page `saveFile` part ways: the same non-abort picker
      error gives an anchor download in one and a logged failure in the other. */
  lemma NonAbortErrorContrast(response: ExecuteRequest.Response, content: string, name: string, p: Picker)
    requires p.show.Rejects? && p.show.name != AbortError
    requires TriggerSaveAs(response, HasPicker(p)).Success?
    ensures TriggerSaveAs(response, HasPicker(p)).value.outcome == Downloaded
    ensures PageSaveFile(content, name, HasPicker(p)).outcome == Failed
  {
  }
}

=== FILE: text.dfy ===
/** The JavaScript string operations the client relies on, over `seq<char>`:
    `lastIndexOf`, `endsWith`, ASCII `toLowerCase`, `Array.prototype.join`,
    `String.prototype.split` and `String.prototype.trim`. */
module Text {

  /** `s.lastIndexOf(c)`: the index of the last occurrence of `c`, or -1. */
  function LastIndexOf(s: string, c: char): (r: int)
    ensures -1 <= r < |s|
    ensures r >= 0 ==> s[r] == c
    ensures forall j :: r < j < |s| ==> s[j] != c
  {
    LastIndexBefore(s, c, |s|)
  }

  /** The last occurrence of `c` before index `j`, or -1. */
  function LastIndexBefore(s: string, c: char, j: nat): (r: int)
    requires j <= |s|
    ensures -1 <= r < j
    ensures r >= 0 ==> s[r] == c
    ensures forall k :: r < k < j ==> s[k] != c
  {
    if j == 0 then -1 else if s[j - 1] == c then j - 1 else LastIndexBefore(s, c, j - 1)
  }

  /** `s.endsWith(suffix)` (case-sensitive). */
  predicate EndsWith(s: string, suffix: string) {
    |suffix| <= |s| && s[|s| - |suffix|..] == suffix
  }

  lemma EndsWithAppend(s: string, suffix: string)
    ensures EndsWith(s + suffix, suffix)
  {
    assert (s + suffix)[|s|..] == suffix;
  }

  /** ASCII-only `toLowerCase`: 'A'..'Z' become 'a'..'z', every other character is kept. */
  function LowerChar(c: char): char {
    if 'A' <= c <= 'Z' then (c as int - 'A' as int + 'a' as int) as char else c
  }

  function ToLowerAscii(s: string): (r: string)
    ensures |r| == |s|
    ensures forall i :: 0 <= i < |s| ==> r[i] == LowerChar(s[i])
  {
    seq(|s|, i requires 0 <= i < |s| => LowerChar(s[i]))
  }

  /** `xs.join(sep)` for a one-character separator. */
  function Join(xs: seq<string>, sep: char): string {
    if |xs| == 0 then ""
    else if |xs| == 1 then xs[0]
    else xs[0] + [sep] + Join(xs[1..], sep)
  }

  /** `s.split(sep)` for a one-character separator: always at least one piece, and
      no piece contains the separator. */
  function Split(s: string, sep: char): (r: seq<string>)
    ensures |r| >= 1
    ensures forall k :: 0 <= k < |r| ==> sep !in r[k]
  {
    if |s| == 0 then [""]
    else
      var rest := Split(s[1..], sep);
      if s[0] == sep then [""] + rest
      else [[s[0]] + rest[0]] + rest[1..]
  }

  /** A piece without the separator splits to itself. */
  lemma {:induction false} SplitNoSeparator(a: string, sep: char)
    requires sep !in a
    ensures Split(a, sep) == [a]
  {
    if |a| > 0 {
      SplitNoSeparator(a[1..], sep);
      assert [a[0]] + a[1..] == a;
    }
  }

  /** Splitting `a + sep + b` cuts at the separator that follows `a`. */
  lemma {:induction false} SplitAtSeparator(a: string, b: string, sep: char)
    requires sep !in a
    ensures Split(a + [sep] + b, sep) == [a] + Split(b, sep)
  {
    if |a| == 0 {
      assert (a + [sep] + b)[1..] == b;
    } else {
      SplitAtSeparator(a[1..], b, sep);
      assert (a + [sep] + b)[1..] == a[1..] + [sep] + b;
      assert [a[0]] + a[1..] == a;
    }
  }

  /** `split` undoes `join` when no element contains the separator. */
  lemma {:induction false} SplitJoin(xs: seq<string>, sep: char)
    requires |xs| >= 1
    requires forall k :: 0 <= k < |xs| ==> sep !in xs[k]
    ensures Split(Join(xs, sep), sep) == xs
  {
    if |xs| == 1 {
      SplitNoSeparator(xs[0], sep);
    } else {
      SplitJoin(xs[1..], sep);
      SplitAtSeparator(xs[0], Join(xs[1..], sep), sep);
      assert [xs[0]] + xs[1..] == xs;
    }
  }

  /** Joining two non-empty lists is joining each and putting a separator between. */
  lemma {:induction false} JoinAppend(xs: seq<string>, ys: seq<string>, sep: char)
    requires |xs| >= 1 && |ys| >= 1
    ensures Join(xs + ys, sep) == Join(xs, sep) + [sep] + Join(ys, sep)
  {
    if |xs| > 1 {
      JoinAppend(xs[1..], ys, sep);
      assert (xs + ys)[1..] == xs[1..] + ys;
    } else {
      assert (xs + ys)[1..] == ys;
    }
  }

  /** A joined list ends with its last element, so it never ends with a
      trailing separator when that element is non-empty and separator-free. */
  lemma {:induction false} JoinEndsWithLast(xs: seq<string>, sep: char)
    requires |xs| >= 1
    ensures EndsWith(Join(xs, sep), xs[|xs| - 1])
  {
    if |xs| == 1 {
      assert Join(xs, sep)[0..] == xs[0];
    } else {
      JoinEndsWithLast(xs[1..], sep);
      var j := Join(xs[1..], sep);
      assert Join(xs, sep) == (xs[0] + [sep]) + j;
      var last := xs[|xs| - 1];
      assert j[|j| - |last|..] == last;
      assert ((xs[0] + [sep]) + j)[|(xs[0] + [sep]) + j| - |last|..] == j[|j| - |last|..];
    }
  }

  /** The last character of a joined list is the last character of its last element. */
  lemma JoinLastChar(xs: seq<string>, sep: char)
    requires |xs| >= 1 && |xs[|xs| - 1]| >= 1
    ensures var j := Join(xs, sep); var last := xs[|xs| - 1];
            |j| >= 1 && j[|j| - 1] == last[|last| - 1]
  {
    JoinEndsWithLast(xs, sep);
    var j := Join(xs, sep);
    var last := xs[|xs| - 1];
    assert j[|j| - |last|..][|last| - 1] == j[|j| - 1];
  }

  /** The WhiteSpace and LineTerminator code points that `String.prototype.trim` removes
      (section 12.2 and 12.3 of ECMA-262, with the Zs category written out). */
  predicate IsJsWhitespace(c: char) {
    || c == '\t' || c == '\n' || c == '\U{000B}' || c == '\U{000C}' || c == '\r' || c == ' '
    || c == '\U{00A0}' || c == '\U{1680}' || ('\U{2000}' <= c <= '\U{200A}')
    || c == '\U{2028}' || c == '\U{2029}' || c == '\U{202F}' || c == '\U{205F}'
    || c == '\U{3000}' || c == '\U{FEFF}'
  }

  /** The end of the whitespace run that starts at `i`. */
  function WhitespaceRunEnd(s: string, i: nat): (r: nat)
    requires i <= |s|
    ensures i <= r <= |s|
    ensures forall k :: i <= k < r ==> IsJsWhitespace(s[k])
    ensures r == |s| || !IsJsWhitespace(s[r])
    decreases |s| - i
  {
    if i == |s| || !IsJsWhitespace(s[i]) then i else WhitespaceRunEnd(s, i + 1)
  }

  /** The start of the whitespace run that ends at `j`. */
  function WhitespaceRunStart(s: string, j: nat): (r: nat)
    requires j <= |s|
    ensures r <= j
    ensures forall k :: r <= k < j ==> IsJsWhitespace(s[k])
    ensures r == 0 || !IsJsWhitespace(s[r - 1])
  {
    if j == 0 || !IsJsWhitespace(s[j - 1]) then j else WhitespaceRunStart(s, j - 1)
  }

  /** `s.trim()`: the text between the leading and the trailing whitespace. */
  function Trim(s: string): string {
    var i := WhitespaceRunEnd(s, 0);
    var j := WhitespaceRunStart(s, |s|);
    if i < j then s[i..j] else ""
  }

  /** `trim` yields a contiguous piece of the input with whitespace only around it,
      and neither end of the piece is whitespace. */
  lemma TrimIsCore(s: string)
    ensures exists i, j ::
              && 0 <= i <= j <= |s| && Trim(s) == s[i..j]
              && (forall k :: 0 <= k < i ==> IsJsWhitespace(s[k]))
              && (forall k :: j <= k < |s| ==> IsJsWhitespace(s[k]))
    ensures Trim(s) == [] || (!IsJsWhitespace(Trim(s)[0]) && !IsJsWhitespace(Trim(s)[|Trim(s)| - 1]))
  {
    var i := WhitespaceRunEnd(s, 0);
    var j := WhitespaceRunStart(s, |s|);
    if i >= j {
      assert i == |s|;
      assert Trim(s) == s[|s|..|s|];
    } else {
      assert Trim(s) == s[i..j];
    }
  }

  /** Trimming twice is trimming once. */
  lemma TrimIdempotent(s: string)
    ensures Trim(Trim(s)) == Trim(s)
  {
    var r := Trim(s);
    TrimIsCore(s);
    if r != [] {
      assert WhitespaceRunEnd(r, 0) == 0;
      assert WhitespaceRunStart(r, |r|) == |r|;
      assert r[0..|r|] == r;
    }
  }
}

=== FILE: uri.dfy ===
/** `decodeURIComponent` as ECMA-262 defines it (its abstract operation Decode with an
    empty reserved set), and `encodeURIComponent` as its inverse.

    Decoding runs in two phases: `Unescape` turns the text into literal characters and
    `%XY` octets, failing on a `%` that is not followed by two hex digits; `DecodeTokens`
    then reads the octets as UTF-8, failing on a bad lead byte, a missing continuation
    byte, an overlong form, a surrogate or a code point above U+10FFFF. Every failure is
    the same `URIError`, so detecting it in two passes gives the same outcome as the
    standard's single left-to-right pass. */
module Uri {
  import opened Wrappers

  type Byte = x: int | 0 <= x < 256

  predicate IsHexDigit(c: char) {
    ('0' <= c <= '9') || ('a' <= c <= 'f') || ('A' <= c <= 'F')
  }

  function HexValue(c: char): (v: nat)
    requires IsHexDigit(c)
    ensures v < 16
  {
    if '0' <= c <= '9' then c as int - '0' as int
    else if 'a' <= c <= 'f' then c as int - 'a' as int + 10
    else c as int - 'A' as int + 10
  }

  /** The upper-case hex digit `encodeURIComponent` writes for `d`. */
  function HexDigit(d: nat): (c: char)
    requires d < 16
    ensures IsHexDigit(c) && HexValue(c) == d
  {
    if d < 10 then ('0' as int + d) as char else ('A' as int + d - 10) as char
  }

  /** A character of the input, or an octet written as `%XY`. */
  datatype Token = Lit(c: char) | Octet(b: Byte)

  /** Phase one: `None` when some `%` is not followed by two hex digits. */
  function Unescape(s: string): Option<seq<Token>> {
    if |s| == 0 then Some([])
    else if s[0] == '%' then
      if |s| >= 3 && IsHexDigit(s[1]) && IsHexDigit(s[2]) then
        var rest :- Unescape(s[3..]);
        Some([Octet(HexValue(s[1]) * 16 + HexValue(s[2]))] + rest)
      else None
    else
      var rest :- Unescape(s[1..]);
      Some([Lit(s[0])] + rest)
  }

  /** The length of the UTF-8 sequence a byte starts: 1 for ASCII, 2 to 4 for a lead
      byte, 0 for a continuation byte or 0xF8..0xFF, which cannot start one. */
  function SequenceLength(b: Byte): nat {
    if b < 0x80 then 1
    else if b < 0xC0 then 0
    else if b < 0xE0 then 2
    else if b < 0xF0 then 3
    else if b < 0xF8 then 4
    else 0
  }

  predicate IsContinuation(t: Token) {
    t.Octet? && 0x80 <= t.b < 0xC0
  }

  /** The code point encoded by the lead octet `ts[0]` and its `n - 1` continuation octets. */
  function CodePoint(ts: seq<Token>, n: nat): int
    requires 2 <= n <= 4 && |ts| >= n && ts[0].Octet?
    requires forall k :: 1 <= k < n ==> IsContinuation(ts[k])
  {
    assert IsContinuation(ts[1]);
    assert n >= 3 ==> IsContinuation(ts[2]);
    assert n == 4 ==> IsContinuation(ts[3]);
    if n == 2 then
      (ts[0].b - 0xC0) * 64 + (ts[1].b - 0x80)
    else if n == 3 then
      ((ts[0].b - 0xE0) * 64 + (ts[1].b - 0x80)) * 64 + (ts[2].b - 0x80)
    else
      (((ts[0].b - 0xF0) * 64 + (ts[1].b - 0x80)) * 64 + (ts[2].b - 0x80)) * 64 + (ts[3].b - 0x80)
  }

  /** The shortest-form, non-surrogate, in-range code points an `n`-byte sequence may carry. */
  predicate ValidCodePoint(cp: int, n: nat) {
    if n == 2 then 0x80 <= cp < 0x800
    else if n == 3 then 0x800 <= cp < 0x10000 && !(0xD800 <= cp < 0xE000)
    else 0x10000 <= cp < 0x110000
  }

  /** Phase two: the UTF-8 reading of the octets; `None` is the `URIError`. */
  function DecodeTokens(ts: seq<Token>): Option<string>
    decreases |ts|
  {
    if |ts| == 0 then Some("")
    else match ts[0]
      case Lit(c) =>
        var rest :- DecodeTokens(ts[1..]);
        Some([c] + rest)
      case Octet(b) =>
        var n := SequenceLength(b);
        if n == 1 then
          var rest :- DecodeTokens(ts[1..]);
          Some([b as char] + rest)
        else if n == 0 || |ts| < n || exists k :: 1 <= k < n && !IsContinuation(ts[k]) then None
        else
          var cp := CodePoint(ts, n);
          if !ValidCodePoint(cp, n) then None
          else
            var rest :- DecodeTokens(ts[n..]);
            Some([cp as char] + rest)
  }

  /** The `URIError` `decodeURIComponent` throws, with V8's message. */
  datatype UriError = UriError {
    function Message(): string {
      UriMalformed
    }
  }

  const UriMalformed := "URI malformed"

  /** `decodeURIComponent(s)`; `None` stands for the thrown `URIError`. */
  function DecodeUriComponent(s: string): Option<string> {
    var ts :- Unescape(s);
    DecodeTokens(ts)
  }

  /** A `%` that does not start a well-formed escape makes decoding fail, wherever it is. */
  lemma {:induction false} BadEscapeFails(s: string, i: nat)
    requires i < |s| && s[i] == '%'
    requires !(i + 2 < |s| && IsHexDigit(s[i + 1]) && IsHexDigit(s[i + 2]))
    ensures Unescape(s) == None
    ensures DecodeUriComponent(s) == None
  {
    if i > 0 {
      if s[0] == '%' {
        if |s| >= 3 && IsHexDigit(s[1]) && IsHexDigit(s[2]) {
          assert i >= 3;
          BadEscapeFails(s[3..], i - 3);
        }
      } else {
        BadEscapeFails(s[1..], i - 1);
      }
    }
  }

  /** Text without `%` decodes to itself. */
  lemma DecodeWithoutEscapes(s: string)
    ensures '%' !in s ==> DecodeUriComponent(s) == Some(s)
  {
    if '%' !in s {
      LiteralsDecode(s);
    }
  }

  /** Each character as a literal token. */
  function Lits(s: string): (ts: seq<Token>)
    ensures |ts| == |s|
  {
    if |s| == 0 then [] else [Lit(s[0])] + Lits(s[1..])
  }

  lemma {:induction false} LiteralsDecode(s: string)
    requires '%' !in s
    ensures Unescape(s) == Some(Lits(s))
    ensures DecodeTokens(Lits(s)) == Some(s)
  {
    if |s| > 0 {
      LiteralsDecode(s[1..]);
      assert Lits(s)[1..] == Lits(s[1..]);
      assert [s[0]] + s[1..] == s;
    }
  }

  // ---------------------------------------------------------------------------
  // The inverse: encodeURIComponent (the abstract operation Encode of ECMA-262)
  // ---------------------------------------------------------------------------

  /** The characters `encodeURIComponent` leaves as they are. */
  predicate IsUnreserved(c: char) {
    || ('a' <= c <= 'z') || ('A' <= c <= 'Z') || ('0' <= c <= '9')
    || c == '-' || c == '_' || c == '.' || c == '!' || c == '~' || c == '*'
    || c == '\'' || c == '(' || c == ')'
  }

  /** The UTF-8 encoding of one code point. */
  function Utf8(c: char): (bs: seq<Byte>)
    ensures 1 <= |bs| <= 4
  {
    var cp := c as int;
    if cp < 0x80 then [cp]
    else if cp < 0x800 then [0xC0 + cp / 64, 0x80 + cp % 64]
    else if cp < 0x10000 then [0xE0 + cp / 64 / 64, 0x80 + cp / 64 % 64, 0x80 + cp % 64]
    else [0xF0 + cp / 64 / 64 / 64, 0x80 + cp / 64 / 64 % 64, 0x80 + cp / 64 % 64, 0x80 + cp % 64]
  }

  function PercentBytes(bs: seq<Byte>): string {
    if |bs| == 0 then "" else ['%', HexDigit(bs[0] / 16), HexDigit(bs[0] % 16)] + PercentBytes(bs[1..])
  }

  function EncodeChar(c: char): string {
    if IsUnreserved(c) then [c] else PercentBytes(Utf8(c))
  }

  /** `encodeURIComponent(s)`. */
  function EncodeUriComponent(s: string): string {
    if |s| == 0 then "" else EncodeChar(s[0]) + EncodeUriComponent(s[1..])
  }

  function Octets(bs: seq<Byte>): (ts: seq<Token>)
    ensures |ts| == |bs|
    ensures forall k :: 0 <= k < |bs| ==> ts[k] == Octet(bs[k])
  {
    seq(|bs|, k requires 0 <= k < |bs| => Octet(bs[k]))
  }

  /** The tokens phase one produces for the encoding of `c`. */
  function CharTokens(c: char): seq<Token> {
    if IsUnreserved(c) then [Lit(c)] else Octets(Utf8(c))
  }

  function TokensOf(s: string): seq<Token> {
    if |s| == 0 then [] else CharTokens(s[0]) + TokensOf(s[1..])
  }

  lemma {:induction false} UnescapePercentBytes(bs: seq<Byte>, rest: string)
    ensures Unescape(PercentBytes(bs) + rest) ==
      match Unescape(rest)
      case Some(ts) => Some(Octets(bs) + ts)
      case None => None
  {
    if |bs| > 0 {
      var s := PercentBytes(bs) + rest;
      var hi, lo := HexDigit(bs[0] / 16), HexDigit(bs[0] % 16);
      UnescapePercentBytes(bs[1..], rest);
      assert s == ['%', hi, lo] + (PercentBytes(bs[1..]) + rest);
      assert s[0] == '%' && s[1] == hi && s[2] == lo;
      assert s[3..] == PercentBytes(bs[1..]) + rest;
      assert HexValue(s[1]) * 16 + HexValue(s[2]) == bs[0];
      assert Octets(bs) == [Octet(bs[0])] + Octets(bs[1..]);
      var v := HexValue(s[1]) * 16 + HexValue(s[2]);
      match Unescape(rest)
      case None =>
        assert Unescape(s[3..]) == None;
      case Some(ts) =>
        assert Unescape(s[3..]) == Some(Octets(bs[1..]) + ts);
        assert Unescape(s) == Some([Octet(v)] + (Octets(bs[1..]) + ts));
        assert [Octet(v)] + (Octets(bs[1..]) + ts) == Octets(bs) + ts;
    } else {
      assert PercentBytes(bs) + rest == rest;
      assert forall ts: seq<Token> :: Octets(bs) + ts == ts;
    }
  }

  lemma {:induction false} UnescapeEncoding(s: string)
    ensures Unescape(EncodeUriComponent(s)) == Some(TokensOf(s))
  {
    if |s| > 0 {
      UnescapeEncoding(s[1..]);
      var rest := EncodeUriComponent(s[1..]);
      if IsUnreserved(s[0]) {
        assert ([s[0]] + rest)[1..] == rest;
      } else {
        UnescapePercentBytes(Utf8(s[0]), rest);
      }
    }
  }

  /** The octets of one encoded character decode back to that character. */
  lemma CharTokensDecode(c: char, ts: seq<Token>)
    ensures DecodeTokens(CharTokens(c) + ts) ==
      match DecodeTokens(ts)
      case Some(r) => Some([c] + r)
      case None => None
  {
    var all := CharTokens(c) + ts;
    if IsUnreserved(c) || (c as int) < 0x80 {
      assert all[1..] == ts;
    } else {
      MultiByteDecode(c, ts);
    }
  }

  /** A character beyond ASCII travels as two to four escaped octets. */
  lemma MultiByteDecode(c: char, ts: seq<Token>)
    requires !IsUnreserved(c) && (c as int) >= 0x80
    ensures DecodeTokens(CharTokens(c) + ts) ==
      match DecodeTokens(ts)
      case Some(r) => Some([c] + r)
      case None => None
  {
    var all := CharTokens(c) + ts;
    var cp := c as int;
    var n := |Utf8(c)|;
    assert all[n..] == ts;
    if cp < 0x800 {
      assert cp == (cp / 64) * 64 + cp % 64;
    } else if cp < 0x10000 {
      var q := cp / 64;
      assert cp == q * 64 + cp % 64;
      assert q == (q / 64) * 64 + q % 64;
    } else {
      var q := cp / 64;
      var q2 := q / 64;
      assert cp == q * 64 + cp % 64;
      assert q == q2 * 64 + q % 64;
      assert q2 == (q2 / 64) * 64 + q2 % 64;
    }
    assert CodePoint(all, n) == cp;
  }

  lemma {:induction false} DecodeTokensOf(s: string)
    ensures DecodeTokens(TokensOf(s)) == Some(s)
  {
    if |s| > 0 {
      DecodeTokensOf(s[1..]);
      CharTokensDecode(s[0], TokensOf(s[1..]));
      assert [s[0]] + s[1..] == s;
    }
  }

  /** `decodeURIComponent(encodeURIComponent(s)) == s` for every string. */
  lemma DecodeEncode(s: string)
    ensures DecodeUriComponent(EncodeUriComponent(s)) == Some(s)
  {
    UnescapeEncoding(s);
    DecodeTokensOf(s);
  }

  /** A UTF-8 name with one two-byte character: "naïve.txt" travels as `na%C3%AFve.txt`. */
  lemma NaiveEncoding(s: string)
    requires s == "na\U{00EF}ve.txt"
    ensures EncodeUriComponent(s) == "na%C3%AFve.txt"
  {
    NaiveParts(s);
    EncodeThree("na", ['\U{00EF}'], "ve.txt");
    NaiveEncodedParts();
    NaiveJoined();
  }

  lemma EncodeThree(a: string, b: string, c: string)
    ensures EncodeUriComponent(a + (b + c)) == EncodeUriComponent(a) + (EncodeUriComponent(b) + EncodeUriComponent(c))
  {
    EncodeAppend(a, b + c);
    EncodeAppend(b, c);
  }

  lemma NaiveJoined()
    ensures "na" + ("%C3%AF" + "ve.txt") == "na%C3%AFve.txt"
  {
  }

  lemma NaiveParts(s: string)
    requires s == "na\U{00EF}ve.txt"
    ensures s == "na" + (['\U{00EF}'] + "ve.txt")
  {
  }

  lemma NaiveEncodedParts()
    ensures EncodeUriComponent("na") == "na"
    ensures EncodeUriComponent(['\U{00EF}']) == "%C3%AF"
    ensures EncodeUriComponent("ve.txt") == "ve.txt"
  {
    DiaeresisEncoding();
  }

  /** Encoding works character by character. */
  lemma {:induction false} EncodeAppend(a: string, b: string)
    ensures EncodeUriComponent(a + b) == EncodeUriComponent(a) + EncodeUriComponent(b)
  {
    if |a| > 0 {
      EncodeAppend(a[1..], b);
      assert (a + b)[0] == a[0];
      assert (a + b)[1..] == a[1..] + b;
      calc {
        EncodeUriComponent(a + b);
        EncodeChar(a[0]) + EncodeUriComponent(a[1..] + b);
        EncodeChar(a[0]) + (EncodeUriComponent(a[1..]) + EncodeUriComponent(b));
        (EncodeChar(a[0]) + EncodeUriComponent(a[1..])) + EncodeUriComponent(b);
      }
    } else {
      assert a + b == b;
    }
  }

  /** U+00EF is the two-byte UTF-8 sequence C3 AF. */
  lemma DiaeresisEncoding()
    ensures EncodeChar('\U{00EF}') == "%C3%AF"
  {
    assert Utf8('\U{00EF}') == [0xC3, 0xAF];
    assert PercentBytes([0xC3, 0xAF]) == "%C3%AF";
  }

  lemma NaiveDecoding()
    ensures DecodeUriComponent("na%C3%AFve.txt") == Some("na\U{00EF}ve.txt")
  {
    NaiveEncoding("na\U{00EF}ve.txt");
    DecodeEncode("na\U{00EF}ve.txt");
  }
}

=== FILE: wrappers.dfy ===
/** Failure-compatible Option and Result types shared by every module of the model. */
module Wrappers {

  /** A value that may be absent (a JavaScript `null`/`undefined` or a failed match). */
  datatype Option<+T> = None | Some(value: T) {

    predicate IsFailure() {
      None?
    }

    function PropagateFailure<U>(): Option<U>
      requires None?
    {
      None
    }

    function Extract(): T
      requires Some?
    {
      value
    }

    /** The value, or `default` when absent. */
    function GetOr(default: T): T {
      match this
      case Some(v) => v
      case None => default
    }
  }

  /** Either a value or the error that was thrown instead. */
  datatype Result<+R, +E> = Success(value: R) | Failure(error: E) {

    predicate IsFailure() {
      Failure?
    }

    function PropagateFailure<U>(): Result<U, E>
      requires Failure?
    {
      Failure(error)
    }

    function Extract(): R
      requires Success?
    {
      value
    }
  }
}
